=== FILE: README.md ===
# persistent-request in Dafny

`PersistentRequest` is an event emitter that keeps one streaming HTTP request
alive. It issues the request, reports the response, and notices when the
stream closes, fails or goes quiet. A keepalive timeout reconnects at once. A
close reconnects after the configured delay: always in the root `index.js`,
and only with `reconnectOnClose` in `src/index.js`. A failed request is
reported and never retried, because `reconnectOnError` is never set. All of
this stops once the instance is destroyed. This project models its reconnection state machine and the
header handling of its fetch adapter, and proves properties of both.

Files:

- `controller.dfy` (module `Controller`) covers `src/index.js`.
  - A `State` datatype holds the object's fields. It also holds the runtime
    state that the source keeps in closures and timers: requests in flight,
    open streams, keepalive timers, reconnection waits and cancelled sources.
  - Each asynchronous continuation is a pure transition `AfterX`. These are the
    `then`/`catch` of the request, the stream's `close`/`data`, the keepalive
    timer and the reconnection wait. Each transition states what it does and
    preserves the invariant `Valid`.
  - `Step`/`Run` apply any sequence of calls and continuations, and lemmas
    state what holds over every run.
  - The class `PersistentRequest` has the real fields and one method per
    operation. Each method's new state is the matching transition of the old
    one.
- `legacy.dfy` (module `LegacyController`) covers the earlier root `index.js`
  in the same shape.
- `uri.dfy` (module `Uri`) holds both `uri` getters. The query string is the
  `application/x-www-form-urlencoded` serializer of section 5.2 of the WHATWG
  URL Standard, and it is proved to read back.
- `fetch_adapter.dfy` (module `FetchAdapter`) covers `lib/adapter/fetch.js`:
  - `setupRequestHeaders`, over a `Headers` class;
  - `setupAuthHeader`, the Basic credential of RFC 7617 section 2;
  - the `reqOptions` record;
  - the header copy in `responseBuilder`.
- `text.dfy` (module `Text`) holds what the platform provides:
  - ASCII case mapping;
  - UTF-8 encoding;
  - `btoa`, with a base64 (RFC 4648 section 4) encoder and decoder and their
    round trip.
- `events.dfy` and `wrappers.dfy` hold the shared event and result types.

An attempt is named by its generation: the value of `nRequests` right after
the `connect` that issued it. In `src/index.js`, that attempt's cancel source
has the same identity.

Where the documented design and the code disagree, the model follows the code:

- **Stale `then`/`catch` are applied.** Only the `close` listener checks that
  its attempt is still current. A stale response still sets `connected` and
  emits `response` (`StaleResponseIsApplied`).
- **Two reconnection waits can be pending.** `connect` does not clear
  `reconnecting`, but every settled request does. So two waits can be pending
  at once (`TwoWaitsCanBePending`).
- **`destroy` is not idempotent in its events.** Each call emits `abort` and
  `destroy` again (`DestroyTwice`).
- **Request errors never reconnect.** The error path reconnects only when
  `reconnectOnError` is set, and no code sets it (`ErrorPathNeverReconnects`).
- **There is no liveness probe.** The code has neither the probe nor a
  probe interval.
- **Keepalive differs between versions.** In `src/index.js` each attempt's
  keepalive timer is armed when the response arrives, with twice
  `keepaliveTime`. In the root `index.js` a single shared timer is armed only
  by data, with `keepaliveTime`.

## Model

| member | source | states |
|---|---|---|
| `Controller.ResolvePolicy` | src/index.js:18-24 | The defaults (0, false, 0), each replaced by the caller's option when the key is present |
| `Controller.CheckRequestOptions` | src/index.js:12-15 | Construction succeeds exactly for an object argument. Both a non-object and `null` (which passes `typeof` and fails later in `uri`) give a TypeError |
| `Controller.Initial` | src/index.js:17-32 | The fields the constructor sets before it connects form a valid state: no request yet, an empty log, no cancel source, `reconnectOnError` unset |
| `Controller.Construct` | src/index.js:10-35 | A new instance has connected once: one attempt in flight, `connecting` set, log `[connecting]`, invariant established |
| `Controller.AfterAbort` | src/index.js:153-161 | The current source, if any, is cancelled and deleted; `abort` is emitted; nothing else changes; invariant kept |
| `Controller.AfterConnect` | src/index.js:36-56 | Nothing once destroyed. Otherwise a live attempt is aborted first, the count goes up by one, the new attempt is in flight and current, and the log gains `connecting` |
| `Controller.AfterReconnect` | src/index.js:124-144 | No effect when destroyed or already reconnecting. Otherwise `reconnecting` is set and emitted; a positive wait (negative means the option) is scheduled, and a non-positive one connects at once |
| `Controller.EffectiveWait` | src/index.js:129 | A non-negative argument is the delay used as given; a negative delay can only come from `waitBeforeReconnection` |
| `Controller.AfterReconnectWait` | src/index.js:134-143 | The elapsed wait is removed; a new attempt is issued unless destroyed meanwhile |
| `Controller.AfterResponse` | src/index.js:57-97 | Connected, not connecting or reconnecting, `response(g)` logged, stream g open. With keepaliveTime > 0, g's timer is armed at twice keepaliveTime |
| `Controller.FailureEvents` | src/index.js:112-117 | A non-cancel failure emits `request:error` first, and `error` as well exactly when the server responded; at most these two events |
| `Controller.AfterRequestError` | src/index.js:104-120 | Flags cleared. A cancellation is silent. Another failure logs `request:error`, plus `error` only when the server responded, and schedules nothing |
| `Controller.CloseReconnects` | src/index.js:66-73 | The guard under which a close reconnects: the source is current, not destroyed, `reconnectOnClose` set and no reconnection under way. A predicate without a contract; `Controller.CloseListener` and `Controller.CloseSchedulesWait` state what it decides |
| `Controller.CloseListener` | src/index.js:65-77 | A stale close changes nothing. The current one clears `connected` and logs `close`, and reconnects only when not destroyed, the option is set and no reconnection is under way |
| `Controller.AfterClose` | src/index.js:65-95 | Stream g is closed and its keepalive timer cleared in every case; otherwise as the guarded listener |
| `Controller.AfterData` | src/index.js:79-96 | With keepaliveTime > 0, g's timer is re-armed at twice keepaliveTime; nothing else changes |
| `Controller.AfterKeepaliveTimeout` | src/index.js:83-90 | The timer is gone. Unless destroyed, a forced reconnect with no wait: when not already reconnecting, a new attempt at once, whatever the configured wait |
| `Controller.AfterDestroy` | src/index.js:145-152 | Destroyed, no current source (the old one cancelled), log gains `abort`, `destroy`; requests and waits untouched |
| `Controller.Step` | src/index.js:36-161 | Any call or continuation keeps the invariant, the options, the log prefix and the monotone request count |
| `Controller.RunKeepsValid` | src/index.js:36-161 | Every run from a valid state ends valid, with the same options, an extended log and `reconnectOnError` never set |
| `Controller.DestroyedStepIsInert` | src/index.js:124-152 | One step after destroy issues no request, schedules no wait and logs no `connecting`, `reconnecting` or `close` |
| `Controller.DestroyIsTerminal` | src/index.js:145-152 | After destroy, every run stays destroyed, issues no request, adds no wait and logs no lifecycle event |
| `Controller.ReconnectIsIdempotent` | src/index.js:124-127 | A second `reconnect` with any wait changes nothing |
| `Controller.DestroyTwice` | src/index.js:145-161 | A second `destroy` only logs `abort` and `destroy` again |
| `Controller.ErrorPathNeverReconnects` | src/index.js:104-120 | In every run of a constructed instance a failure clears all flags and issues or schedules nothing |
| `Controller.StaleResponseIsApplied` | src/index.js:57-63 | After a second connect, the superseded attempt resolving still sets `connected` and logs `response(1)` |
| `Controller.StaleCloseIsIgnored` | src/index.js:65-77 | The close of a superseded attempt logs nothing and changes no flag |
| `Controller.AbortIsSilent` | src/index.js:153-161 | After abort, no stream's close is applied and a cancelled rejection logs and schedules nothing |
| `Controller.CloseSchedulesWait` | src/index.js:72-73 | With `reconnectOnClose` and a positive wait, the current stream closing schedules exactly one wait of that length |
| `Controller.TwoWaitsCanBePending` | src/index.js:124-137 | A concrete run (response, close, connect, response, close) leaves two 500 ms waits pending |
| `Controller.PersistentRequest.TargetUri` | src/index.js:165-179 | The `uri` getter of an instance: it always starts with the base URL, if any, followed by the url |
| `Controller.PersistentRequest.constructor` | src/index.js:10-35 | The new object's state is `Construct` of the resolved options |
| `Controller.PersistentRequest.Connect` | src/index.js:36-123 | New state is `AfterConnect` of the old |
| `Controller.PersistentRequest.Reconnect` | src/index.js:124-144 | New state is `AfterReconnect` of the old |
| `Controller.PersistentRequest.Abort` | src/index.js:153-161 | New state is `AfterAbort` of the old |
| `Controller.PersistentRequest.Destroy` | src/index.js:145-152 | New state is `AfterDestroy` of the old |
| `Controller.PersistentRequest.HandleResponse` | src/index.js:57-97 | New state is `AfterResponse` of the old |
| `Controller.PersistentRequest.HandleRequestError` | src/index.js:104-120 | New state is `AfterRequestError` of the old |
| `Controller.PersistentRequest.HandleClose` | src/index.js:65-95 | New state is `AfterClose` of the old |
| `Controller.PersistentRequest.HandleData` | src/index.js:79-92 | New state is `AfterData` of the old |
| `Controller.PersistentRequest.HandleKeepaliveTimeout` | src/index.js:83-90 | New state is `AfterKeepaliveTimeout` of the old |
| `Controller.PersistentRequest.HandleReconnectWait` | src/index.js:134-143 | New state is `AfterReconnectWait` of the old |
| `Controller.Create` | src/index.js:10-15 | Fails exactly for a non-object argument, with the TypeError above; otherwise a fresh constructed instance |
| `LegacyController.CheckRequestOptions` | index.js:11-14 | A non-object gives a plain Error; `null` passes the check and gives a TypeError later; only an object succeeds |
| `LegacyController.Initial` | index.js:16-34 | The fields the constructor sets before it connects form a valid state: no request yet, an empty log, the source not yet cancelled |
| `LegacyController.Construct` | index.js:9-40 | The first connect already aborts: log `[abort, connecting]`, the one source cancelled, one attempt in flight |
| `LegacyController.AfterAbort` | index.js:147-151 | `abort` is emitted, every registered abort listener destroys its stream and is removed, the source is cancelled, and no request settles |
| `LegacyController.AfterConnect` | index.js:41-51 | Unless destroyed: always aborts, so every open stream has been destroyed. Then the count goes up, `reqError` is cleared, and the log gains `abort`, `connecting` |
| `LegacyController.AfterReconnect` | index.js:118-138 | As in the later version: guard, `reconnecting`, then a wait or an immediate connect |
| `LegacyController.EffectiveWait` | index.js:123 | A non-negative argument is the delay used as given; a negative delay can only come from `waitBeforeReconnection` |
| `LegacyController.AfterReconnectWait` | index.js:128-137 | The wait is removed; a new attempt unless destroyed |
| `LegacyController.AfterResponse` | index.js:54-75 | Connected, flags cleared, `response(g)` logged, stream open with its abort listener; no timer armed |
| `LegacyController.AfterRequestError` | index.js:98-111 | Flags cleared. A cancellation is silent. Any other failure logs `error(g)` and records it in `reqError` |
| `LegacyController.AfterClose` | index.js:62-68 | Any stream's close clears the one keepalive timer and `connected`, logs `close`, and reconnects unless destroyed |
| `LegacyController.AfterData` | index.js:77-89 | With keepaliveTime > 0, the one timer is re-armed with keepaliveTime |
| `LegacyController.AfterKeepaliveTimeout` | index.js:80-87 | The timer is gone; unless destroyed, an immediate reconnect |
| `LegacyController.AfterDestroy` | index.js:139-146 | Destroyed, every open stream destroyed, log gains `abort`, `destroy` |
| `LegacyController.Step` | index.js:41-151 | Any call or continuation keeps the invariant and the monotone state |
| `LegacyController.RunKeepsValid` | index.js:41-151 | Every run from a valid state ends valid |
| `LegacyController.CancelLeavesRequestsInFlight` | index.js:147-151 | Aborts and destroys never settle a request or issue one, and they leave the source cancelled |
| `LegacyController.CloseReconnectsRegardlessOfOption` | index.js:62-68 | With `reconnectOnClose` false, a close still logs `close`, `reconnecting` and reconnects |
| `LegacyController.KeepaliveIsShared` | index.js:62-89 | Data on one stream arms the shared timer; the close of another stream disarms it |
| `LegacyController.DestroyedStepIsInert` | index.js:118-146 | One step after destroy issues no request, schedules no wait, logs no `connecting` or `reconnecting` |
| `LegacyController.DestroyIsTerminal` | index.js:139-146 | After destroy, no run issues a request or schedules a wait; closes are not excluded (`LegacyController.AfterClose` still logs one after destroy) |
| `LegacyController.DestroyTwice` | index.js:139-151 | A second `destroy` only logs `abort` and `destroy` again |
| `LegacyController.PersistentRequest.TargetUri` | index.js:155-158 | The legacy `uri` getter is a prefix of the later getter, and equal to it when there are no params |
| `LegacyController.PersistentRequest.constructor` | index.js:9-40 | State is `Construct` of the resolved options |
| `LegacyController.PersistentRequest.Connect` | index.js:41-117 | New state is `AfterConnect` of the old |
| `LegacyController.PersistentRequest.Reconnect` | index.js:118-138 | New state is `AfterReconnect` of the old |
| `LegacyController.PersistentRequest.Abort` | index.js:147-151 | New state is `AfterAbort` of the old |
| `LegacyController.PersistentRequest.Destroy` | index.js:139-146 | New state is `AfterDestroy` of the old |
| `LegacyController.PersistentRequest.HandleResponse` | index.js:54-97 | New state is `AfterResponse` of the old |
| `LegacyController.PersistentRequest.HandleRequestError` | index.js:98-111 | New state is `AfterRequestError` of the old |
| `LegacyController.PersistentRequest.HandleClose` | index.js:62-68 | New state is `AfterClose` of the old |
| `LegacyController.PersistentRequest.HandleData` | index.js:77-89 | New state is `AfterData` of the old |
| `LegacyController.PersistentRequest.HandleKeepaliveTimeout` | index.js:80-87 | New state is `AfterKeepaliveTimeout` of the old |
| `LegacyController.PersistentRequest.HandleReconnectWait` | index.js:128-137 | New state is `AfterReconnectWait` of the old |
| `LegacyController.Create` | index.js:9-14 | Fails exactly for a non-object argument, with the error above; otherwise a fresh constructed instance |
| `Uri.Base` | index.js:155-158 | The url alone without a base URL, else the base URL followed by the url |
| `Uri.Kept` | src/index.js:170-174 | Every kept pair comes from an entry with a given value and every such entry is kept; at most as many as the entries; empty iff there is none |
| `Uri.KeptSingleton` | src/index.js:170-174 | One entry is kept, as its name and value, iff its value is neither null nor undefined |
| `Uri.KeptConcat` | src/index.js:170-174 | Filtering distributes over concatenation, so the kept pairs keep the order and multiplicity of `Object.entries` |
| `Uri.FormEncode` | src/index.js:170-175 | Every output character is unreserved, `+` or `%`, so no `&` or `=` is produced |
| `Uri.QueryRoundTrip` | src/index.js:170-176 | The serialized query splits back, in order, into each pair's form-encoded name and form-encoded value; it is empty iff there are no pairs |
| `Uri.Build` | src/index.js:165-179 | The `uri` getter starts with the base and url; anything after them begins with `?` and needs params |
| `Uri.BuildShape` | src/index.js:165-179 | `?query` is appended exactly when some param has a non-null, non-undefined value, and the query reads back, in order, to each kept entry's form-encoded name and value |
| `Uri.BuildExtendsBase` | src/index.js:165-168 | The later getter extends the earlier one and equals it without params |
| `Text.UpperEqIffLowerEq` | lib/adapter/fetch.js:129-130 | Comparing names after `toUpperCase` agrees with the case-insensitive comparison `Headers` uses |
| `Text.Base64RoundTrip` | lib/adapter/fetch.js:179-185 | Decoding the base64 encoding of any byte string gives it back |
| `Text.Btoa` | lib/adapter/fetch.js:179-185 | `btoa` succeeds exactly on Latin-1 text, and its output decodes to that text's bytes |
| `Text.Utf8AsLatin1` | lib/adapter/fetch.js:182-184 | `unescape(encodeURIComponent(s))` yields only Latin-1 characters |
| `FetchAdapter.GetValue` | lib/adapter/fetch.js:124 | `get` is null iff the name has no value, and the empty string iff its only value is empty |
| `FetchAdapter.AppendValue` | lib/adapter/fetch.js:133 | The name gains the value at the end; other names are unchanged |
| `FetchAdapter.DeleteName` | lib/adapter/fetch.js:125 | The name has no value left; other names are unchanged |
| `FetchAdapter.SetValue` | lib/adapter/fetch.js:142 | The name has exactly that value; other names are unchanged |
| `FetchAdapter.Headers.Get` | lib/adapter/fetch.js:124 | Null iff absent, else the combined value |
| `FetchAdapter.Headers.Has` | lib/adapter/fetch.js:140 | True iff the name has a value |
| `FetchAdapter.Headers.Append` | lib/adapter/fetch.js:133 | The table becomes `AppendValue` of the old |
| `FetchAdapter.Headers.Delete` | lib/adapter/fetch.js:125 | The table becomes `DeleteName` of the old |
| `FetchAdapter.Headers.Set` | lib/adapter/fetch.js:142 | The table becomes `SetValue` of the old |
| `FetchAdapter.ClearDefault` | lib/adapter/fetch.js:123-126 | A truthy content-type is removed, a missing or empty one leaves the table as it was, and every other name keeps its values |
| `FetchAdapter.AppendConfigured` | lib/adapter/fetch.js:128-135 | The `forEach` over the configured headers keeps the table well formed; `FetchAdapter.AppendConfiguredValues` states what each name then holds |
| `FetchAdapter.ForwardsIff` | lib/adapter/fetch.js:129-132 | A configured header is copied iff it is not content-type or the body is defined and not FormData |
| `FetchAdapter.AppendConfiguredValues` | lib/adapter/fetch.js:128-135 | After the loop each name holds its earlier values followed by all configured values for it, except filtered content-types |
| `FetchAdapter.OtherHeadersAppended` | lib/adapter/fetch.js:120-144 | Every header other than content-type keeps its values, with the configured ones appended in order |
| `FetchAdapter.ContentTypeOutcome` | lib/adapter/fetch.js:120-144 | The final content-type: a falsy existing one is kept; configured ones are added only for an ordinary body; `application/json` if a defined body would otherwise have none |
| `FetchAdapter.FormDataIsSentAsJson` | lib/adapter/fetch.js:128-143 | A FormData body ends with content-type `application/json`, unless the request already carries an empty content-type (which `get` reports as falsy, so it is kept) |
| `FetchAdapter.NoBodyNoContentType` | lib/adapter/fetch.js:123-143 | An undefined body ends with no content-type, unless the request already carries an empty content-type (which `get` reports as falsy, so it is kept) |
| `FetchAdapter.RequestHeaders` | lib/adapter/fetch.js:120-144 | The whole of `setupRequestHeaders` on a table keeps it well formed; `FetchAdapter.ContentTypeOutcome` and `FetchAdapter.OtherHeadersAppended` state its content |
| `FetchAdapter.SetupRequestHeaders` | lib/adapter/fetch.js:120-144 | The request's table becomes `RequestHeaders` of the old one and stays well formed |
| `FetchAdapter.OrEmpty` | lib/adapter/fetch.js:181-184 | A missing field reads as the empty string |
| `FetchAdapter.ConfiguredUserPass` | lib/adapter/fetch.js:181-185 | The user-pass is the username as given, a colon, then a password part that is always Latin-1 |
| `FetchAdapter.BasicCredential` | lib/adapter/fetch.js:175-186 | URL userinfo, if present, is the credential; else `config.auth`'s user-pass; else none. It succeeds iff the text is Latin-1, and it is "Basic " plus a base64 string that decodes to that text |
| `FetchAdapter.UrlCredentialsWin` | lib/adapter/fetch.js:178-180 | With URL userinfo, `config.auth` has no influence |
| `FetchAdapter.ConfiguredCredentialFailsOnlyOnUsername` | lib/adapter/fetch.js:180-185 | Configured credentials fail iff the username is not Latin-1; the password never makes them fail |
| `FetchAdapter.SetupAuthHeader` | lib/adapter/fetch.js:175-190 | `Authorization` is set to the credential when there is one; with none, or when `btoa` throws, the headers are untouched |
| `FetchAdapter.MakeRequestInit` | lib/adapter/fetch.js:200-206 | Method upper-cased and case-insensitively the same, body passed through, credentials `include` iff `withCredentials`, `manual` redirects, `cors` mode |
| `FetchAdapter.LastValue` | lib/adapter/fetch.js:71-73 | No value iff no pair has the key |
| `FetchAdapter.BuildResponse` | lib/adapter/fetch.js:67-83 | Headers map exactly the copied keys, each to the last value given for it; data, status, statusText, config and request passed through |
| `FetchAdapter.DistinctKeysAreCopied` | lib/adapter/fetch.js:71-73 | With distinct keys, as `Headers.forEach` yields them, every pair is copied as it is |

## Left out

- **Transport.** `axios.request`, `fetch`, `settle`, `createError`, body
  reading in `responseParser` and `ReadableWebToNodeStream` are not modelled.
  Request outcomes and stream events are inputs of the model: `Input` and the
  `Handle*` methods.
- **Timers.** Real time and timers are not modelled. A timer is a pending
  entry that the environment may fire, so "no data for twice the window" is
  the firing of an armed timer. Elapsed time between data chunks is not
  modelled.
- **Fetch adapter glue.** The `AbortController`, timeout and cancel-token
  wiring in `fetchAdapter` (lib/adapter/fetch.js:207-249) is not modelled. So
  closing a stream when its request is cancelled is an environment input, not
  an effect of `abort`.
- **Unmodelled parts of the source.**
  - `setupXsrfHeader`: it depends on browser detection and cookies.
  - The `debug` output, `debugOnData`, `enableDebugging` and piping into
    `this.data`.
  - `src/adapter/index.js` and the webpack configuration.
- **`error` with no listener.** In `src/index.js` an `error` emitted with no
  listener throws; the model treats every emit as delivered. In the root
  `index.js` a no-op `error` listener is registered at the end of the
  constructor. Every `error` there is emitted after the constructor returns,
  so the listener always exists and is not a field of the model.
- **Options.** The options are the three reconnection fields only.
  `Object.assign` copying an explicit `undefined`, and non-numeric or
  non-boolean option values, are not modelled.
- **`uri` getter inputs.**
  - `url` is a string. An undefined `url` (which would print "undefined") is
    not modelled.
  - A param value is modelled by its string conversion.
  - `baseURL` is taken as present or falsy.
- **Case mapping.** It is ASCII only. For the one `toUpperCase` comparison
  in the adapter (against "CONTENT-TYPE") this gives the same answer as full
  Unicode upper-casing: no non-ASCII character upper-cases to one of that
  name's letters.
- **Headers objects.** A `Headers` object is a map from lower-cased name to
  values. The order between different names, the original spelling of names,
  and the validation of header names and values (which throws on invalid
  ones) are not modelled. Two more behaviours of the platform's `Headers` are
  not modelled. The `Headers` of a browser `Request` silently ignores
  forbidden request-header names (such as `cookie` or `host`) on append, set
  and delete; the model appends, sets and deletes them like any other name,
  so `AppendConfiguredValues` and `OtherHeadersAppended` also hold for them.
  Values are trimmed of leading and trailing HTTP whitespace on append and
  set; the model stores them as given. The copy in `BuildResponse` takes the pairs that
  `forEach` yields; their sorting and combining are done by the platform.
- **Strings.** A string is a sequence of Unicode scalar values. A lone
  surrogate, on which `encodeURIComponent` throws, cannot occur.
- **URL userinfo.** `url.parse(config.url).auth` is an input, already
  decoded. URL parsing is not modelled.
- **Request bodies.** `config.data` is classified only as undefined, FormData
  or other. `config.method` is assumed present.
- `Controller.AfterClose`: the two `close` listeners run as registered, the
  guarded one first. The model applies the timer-clearing one first. They
  touch disjoint state, so the result is the same.
- `Controller.AfterReconnect`, `LegacyController.AfterReconnect`,
  `Controller.CloseListener`, `LegacyController.AfterClose`: event listeners
  that re-enter the instance during an `emit` are not modelled. A `reconnecting` listener can call
  `destroy()`. The source then re-checks `destroyed` after the zero wait and
  issues no request. The model, which checked `destroyed` before the emit,
  issues one. In the same way, a `close` listener that destroys makes the
  source schedule no reconnection, while `Controller.CloseListener` and
  `LegacyController.AfterClose` decide on the value of `destroyed` from
  before the emit and reconnect.
- `FetchAdapter.BuildResponse`: assigning to a plain object does not create
  an own property named `__proto__`, so the source copies no header of that
  name. The model copies every name, `__proto__` included.

=== FILE: controller.dfy ===
/**
 * The reconnection state machine of src/index.js (class PersistentRequest).
 *
 * Each asynchronous continuation of the source (the request promise's `then`
 * and `catch`, the response stream's `close` and `data` listeners, the
 * keepalive timer, the reconnection wait) is an explicit transition that the
 * environment may fire in any order, subject only to what has been started:
 * a request settles once, a stream emits only while open, a timer fires only
 * while armed. `State` is the whole controller; the `AfterX` functions are the
 * transitions, and the class at the end performs them in place.
 */
module Controller {
  import opened Wrappers
  import opened Events
  import Uri

  // ---------------------------------------------------------------- options

  /** The reconnection options after defaults are applied. */
  datatype Policy = Policy(waitBeforeReconnection: int, reconnectOnClose: bool, keepaliveTime: int)

  /** The keys present in the caller's options object (absent keys are None). */
  datatype Overrides = Overrides(
    waitBeforeReconnection: Option<int>,
    reconnectOnClose: Option<bool>,
    keepaliveTime: Option<int>)

  const NoOverrides := Overrides(None, None, None)

  /** The defaults, overwritten key by key by the caller's options. */
  function ResolvePolicy(o: Overrides): (p: Policy)
    ensures o == NoOverrides ==> p == Policy(0, false, 0)
    ensures p.waitBeforeReconnection == (if o.waitBeforeReconnection.Some? then o.waitBeforeReconnection.value else 0)
    ensures p.reconnectOnClose == (o.reconnectOnClose.Some? && o.reconnectOnClose.value)
    ensures p.keepaliveTime == (if o.keepaliveTime.Some? then o.keepaliveTime.value else 0)
  {
    Policy(
      match o.waitBeforeReconnection case Some(w) => w case None => 0,
      match o.reconnectOnClose case Some(b) => b case None => false,
      match o.keepaliveTime case Some(k) => k case None => 0)
  }

  /** Both ways the constructor can fail are a TypeError: the explicit check,
      and, for `null` (which passes it), destructuring `null` in the `uri`
      getter during the first `connect`. */
  datatype ConstructError = TypeError(nullOptions: bool)

  function CheckRequestOptions(a: Uri.Argument): (r: Result<Uri.RequestOptions, ConstructError>)
    ensures r.Success? <==> a.ObjectArg?
    ensures r.Success? ==> r.value == a.options
    ensures r.Failure? ==> r.error.TypeError? && (r.error.nullOptions <==> a.NullArg?)
  {
    match a
    case ObjectArg(o) => Success(o)
    case NullArg => Failure(TypeError(true))
    case OtherArg => Failure(TypeError(false))
  }

  // ---------------------------------------------------------------- state

  /**
   * The controller. Attempt g is the request issued by the g-th `connect`;
   * its cancel source has the same identity g.
   *   reqSource     the current cancel source (`this._reqSource`), None when
   *                 never created or deleted by `abort`
   *   cancelled     sources whose `cancel` has been called
   *   inFlight      attempts whose request promise has not settled
   *   openStreams   attempts whose response stream has not closed
   *   keepalive     armed keepalive timers, by attempt, with their delay
   *   pendingWaits  reconnection waits in progress, by delay
   *   events        everything emitted so far
   */
  datatype State = State(
    policy: Policy,
    reconnectOnError: bool,
    nRequests: nat,
    connecting: bool,
    connected: bool,
    reconnecting: bool,
    destroyed: bool,
    reqSource: Option<nat>,
    cancelled: set<nat>,
    inFlight: set<nat>,
    openStreams: set<nat>,
    keepalive: map<nat, int>,
    pendingWaits: multiset<int>,
    events: seq<Event>)

  /** The fields as the constructor sets them, before its call to `connect`.
      `reconnectOnError` is read by the error path but never assigned by the
      class, so it starts (and stays) falsy. */
  function Initial(p: Policy): (r: State)
    ensures Valid(r) && r.policy == p && !r.reconnectOnError
    ensures r.nRequests == 0 && r.events == [] && r.inFlight == {} && r.reqSource.None?
  {
    State(p, false, 0, false, false, false, false, None, {}, {}, {}, map[], multiset{}, [])
  }

  /** The object invariant: what every reachable state satisfies. */
  predicate Valid(s: State)
  {
    && (s.reqSource.Some? ==> s.reqSource.value == s.nRequests >= 1 && s.nRequests !in s.cancelled)
    && (s.destroyed ==> s.reqSource.None?)
    && (forall g :: g in s.inFlight ==> 1 <= g <= s.nRequests)
    && (forall g :: g in s.openStreams ==> 1 <= g <= s.nRequests)
    && (forall g :: g in s.cancelled ==> 1 <= g <= s.nRequests)
    && s.inFlight !! s.openStreams
    && s.keepalive.Keys <= s.openStreams
    && (forall g :: g in s.keepalive ==> s.keepalive[g] == 2 * s.policy.keepaliveTime)
    && (s.policy.keepaliveTime <= 0 ==> s.keepalive == map[])
    && (forall w :: w in s.pendingWaits ==> w > 0)
    && CountConnecting(s.events) == s.nRequests
  }

  /** What no transition other than `destroy` changes, and what none undoes:
      the options, the never-assigned `reconnectOnError`, the log so far, the
      request count, and `destroyed` once set. */
  predicate Keeps(s: State, r: State)
  {
    && r.policy == s.policy
    && r.reconnectOnError == s.reconnectOnError
    && s.events <= r.events
    && s.nRequests <= r.nRequests
    && (s.destroyed ==> r.destroyed)
  }

  // ---------------------------------------------------------------- transitions

  /** `abort()`: cancel and delete the current source, if any; emit `abort`. */
  function AfterAbort(s: State): (r: State)
    ensures Keeps(s, r) && r.destroyed == s.destroyed && r.nRequests == s.nRequests
    ensures r.reqSource.None?
    ensures s.reqSource.Some? ==> r.cancelled == s.cancelled + {s.reqSource.value}
    ensures s.reqSource.None? ==> r.cancelled == s.cancelled
    ensures r.events == s.events + [Abort]
    ensures r.connecting == s.connecting && r.connected == s.connected && r.reconnecting == s.reconnecting
    ensures r.inFlight == s.inFlight && r.openStreams == s.openStreams
    ensures r.keepalive == s.keepalive && r.pendingWaits == s.pendingWaits
    ensures Valid(s) ==> Valid(r)
  {
    var s1 := if s.reqSource.Some? then s.(cancelled := s.cancelled + {s.reqSource.value}, reqSource := None) else s;
    CountConnectingAppendOther(s1.events, [Abort]);
    s1.(events := s1.events + [Abort])
  }

  /** `connect()`: nothing once destroyed; otherwise abort a live attempt,
      count and announce a new one, and install its cancel source. */
  function AfterConnect(s: State): (r: State)
    ensures Keeps(s, r) && r.destroyed == s.destroyed
    ensures s.destroyed ==> r == s
    ensures !s.destroyed ==>
      && r.nRequests == s.nRequests + 1
      && r.connecting
      && r.reqSource == Some(r.nRequests)
      && r.inFlight == s.inFlight + {r.nRequests}
      && r.events == s.events + (if s.connecting || s.connected then [Abort] else []) + [Connecting]
    ensures !s.destroyed && (s.connecting || s.connected) && s.reqSource.Some? ==>
      r.cancelled == s.cancelled + {s.reqSource.value}
    ensures s.destroyed || !(s.connecting || s.connected) || s.reqSource.None? ==> r.cancelled == s.cancelled
    ensures r.connected == s.connected && r.reconnecting == s.reconnecting
    ensures r.openStreams == s.openStreams && r.keepalive == s.keepalive && r.pendingWaits == s.pendingWaits
    ensures Valid(s) ==> Valid(r)
  {
    if s.destroyed then s
    else
      var s1 := if s.connecting || s.connected then AfterAbort(s) else s;
      var g := s1.nRequests + 1;
      CountConnectingAppend(s1.events, [Connecting]);
      s1.(nRequests := g, connecting := true, events := s1.events + [Connecting],
          reqSource := Some(g), inFlight := s1.inFlight + {g})
  }

  /** The delay `reconnect(wait)` uses: a negative argument (the default is
      -1) means `waitBeforeReconnection`. */
  function EffectiveWait(s: State, wait: int): (r: int)
    ensures wait >= 0 ==> r == wait
    ensures r < 0 ==> r == s.policy.waitBeforeReconnection
  {
    if wait < 0 then s.policy.waitBeforeReconnection else wait
  }

  /** `reconnect(wait)`: nothing when destroyed or already reconnecting;
      otherwise set `reconnecting`, emit `reconnecting`, and either start a
      wait (positive delay) or connect at once. */
  function AfterReconnect(s: State, wait: int): (r: State)
    ensures Keeps(s, r) && r.destroyed == s.destroyed
    ensures s.destroyed || s.reconnecting ==> r == s
    ensures !s.destroyed && !s.reconnecting ==>
      && r.reconnecting
      && |r.events| > |s.events| && r.events[|s.events|] == Reconnecting
      && (EffectiveWait(s, wait) > 0 ==>
            r.pendingWaits == s.pendingWaits + multiset{EffectiveWait(s, wait)}
            && r.nRequests == s.nRequests && r.events == s.events + [Reconnecting])
      && (EffectiveWait(s, wait) <= 0 ==>
            r.pendingWaits == s.pendingWaits && r.nRequests == s.nRequests + 1 && r.connecting)
    ensures r.connected == s.connected && r.openStreams == s.openStreams && r.keepalive == s.keepalive
    ensures Valid(s) ==> Valid(r)
  {
    if s.destroyed || s.reconnecting then s
    else
      var w := EffectiveWait(s, wait);
      CountConnectingAppendOther(s.events, [Reconnecting]);
      var s1 := s.(reconnecting := true, events := s.events + [Reconnecting]);
      if w > 0 then
        s1.(pendingWaits := s1.pendingWaits + multiset{w})
      else
        // no await: the rest of the async function runs at once. The
        // source re-checks `destroyed` here, which only a `reconnecting`
        // listener could have set; such re-entrant listeners are not modelled
        AfterConnect(s1)
  }

  /** A reconnection wait elapses: connect unless destroyed meanwhile. */
  function AfterReconnectWait(s: State, w: int): (r: State)
    requires w in s.pendingWaits
    ensures Keeps(s, r) && r.destroyed == s.destroyed
    ensures r.pendingWaits == s.pendingWaits - multiset{w}
    ensures s.destroyed ==> r == s.(pendingWaits := s.pendingWaits - multiset{w})
    ensures !s.destroyed ==> r.nRequests == s.nRequests + 1 && r.connecting && r.reconnecting == s.reconnecting
    ensures Valid(s) ==> Valid(r)
  {
    var s1 := s.(pendingWaits := s.pendingWaits - multiset{w});
    if s1.destroyed then s1 else AfterConnect(s1)
  }

  /** The request of attempt g resolves (the `then` handler). It applies to
      the flags whatever g is: there is no check that g is still current. */
  function AfterResponse(s: State, g: nat): (r: State)
    requires g in s.inFlight
    ensures Keeps(s, r) && r.destroyed == s.destroyed && r.nRequests == s.nRequests
    ensures r.connected && !r.connecting && !r.reconnecting
    ensures r.events == s.events + [Response(g)]
    ensures r.inFlight == s.inFlight - {g} && r.openStreams == s.openStreams + {g}
    ensures s.policy.keepaliveTime > 0 ==> r.keepalive == s.keepalive[g := 2 * s.policy.keepaliveTime]
    ensures s.policy.keepaliveTime <= 0 ==> r.keepalive == s.keepalive
    ensures r.reqSource == s.reqSource && r.pendingWaits == s.pendingWaits
    ensures Valid(s) ==> Valid(r)
  {
    CountConnectingAppendOther(s.events, [Response(g)]);
    var s1 := s.(inFlight := s.inFlight - {g}, openStreams := s.openStreams + {g},
                 connected := true, connecting := false, reconnecting := false,
                 events := s.events + [Response(g)]);
    if s.policy.keepaliveTime > 0 then
      // resetTimeout() right after the listeners are attached
      s1.(keepalive := s1.keepalive[g := 2 * s.policy.keepaliveTime])
    else s1
  }

  /** The events a non-cancel failure emits: `request:error`, then `error`
      only when the server did respond. */
  function FailureEvents(g: nat, hasResponse: bool): (r: seq<Event>)
    ensures |r| >= 1 && r[0] == RequestError(g)
    ensures Error(g) in r <==> hasResponse
    ensures |r| <= 2
  {
    [RequestError(g)] + (if hasResponse then [Error(g)] else [])
  }

  /** The request of attempt g rejects (the `catch` handler). */
  function AfterRequestError(s: State, g: nat, f: Failure): (r: State)
    requires g in s.inFlight
    ensures Keeps(s, r) && r.destroyed == s.destroyed
    ensures Valid(s) ==> g !in r.inFlight
    ensures f.Cancel? ==> r.events == s.events && r.nRequests == s.nRequests
    ensures f.Failed? ==> s.events + FailureEvents(g, f.hasResponse) <= r.events
    ensures !s.reconnectOnError ==>
      && !r.connected && !r.connecting && !r.reconnecting
      && r.nRequests == s.nRequests && r.pendingWaits == s.pendingWaits
      && r.events == s.events + (if f.Failed? then FailureEvents(g, f.hasResponse) else [])
    ensures Valid(s) ==> Valid(r)
  {
    var s1 := s.(inFlight := s.inFlight - {g}, connected := false, connecting := false, reconnecting := false);
    match f
    case Cancel => s1
    case Failed(hasResponse) =>
      CountConnectingAppendOther(s1.events, FailureEvents(g, hasResponse));
      var s2 := s1.(events := s1.events + FailureEvents(g, hasResponse));
      if !s2.destroyed && s2.reconnectOnError then AfterReconnect(s2, -1) else s2
  }

  /** Whether a `close` of attempt g leads to `reconnect()` doing something:
      g is current, the instance is not destroyed, `reconnectOnClose` is set
      (and no reconnection is already under way). */
  predicate CloseReconnects(s: State, g: nat)
  {
    s.reqSource == Some(g) && !s.destroyed && s.policy.reconnectOnClose && !s.reconnecting
  }

  /** The guarded `close` listener of attempt g: it acts only if g's cancel
      source is still `this._reqSource`. */
  function CloseListener(s: State, g: nat): (r: State)
    ensures Keeps(s, r) && r.destroyed == s.destroyed
    ensures r.openStreams == s.openStreams && r.keepalive == s.keepalive
    ensures s.reqSource != Some(g) ==> r == s
    ensures s.reqSource == Some(g) ==> !r.connected
    ensures s.reqSource == Some(g) && !CloseReconnects(s, g) ==>
      r.events == s.events + [Close] && r.nRequests == s.nRequests && r.pendingWaits == s.pendingWaits
    ensures CloseReconnects(s, g) ==>
      |r.events| > |s.events| + 1 && r.events[|s.events|] == Close && r.events[|s.events| + 1] == Reconnecting
      && r.reconnecting
    ensures Valid(s) ==> Valid(r)
  {
    if s.reqSource == Some(g) then
      CountConnectingAppendOther(s.events, [Close]);
      var t := s.(connected := false, events := s.events + [Close]);
      if !t.destroyed && t.policy.reconnectOnClose then AfterReconnect(t, -1) else t
    else s
  }

  /** The response stream of attempt g closes: the guarded listener, then
      the once-listener that clears g's keepalive timer in every case. */
  function AfterClose(s: State, g: nat): (r: State)
    requires g in s.openStreams
    ensures Keeps(s, r) && r.destroyed == s.destroyed
    ensures g !in r.openStreams && g !in r.keepalive
    ensures s.reqSource != Some(g) ==>
      r == s.(openStreams := s.openStreams - {g}, keepalive := s.keepalive - {g})
    ensures s.reqSource == Some(g) ==> !r.connected
    ensures s.reqSource == Some(g) && !CloseReconnects(s, g) ==>
      r.events == s.events + [Close] && r.nRequests == s.nRequests && r.pendingWaits == s.pendingWaits
    ensures CloseReconnects(s, g) ==>
      |r.events| > |s.events| + 1 && r.events[|s.events|] == Close && r.events[|s.events| + 1] == Reconnecting
      && r.reconnecting
    ensures Valid(s) ==> Valid(r)
  {
    // The once-listener runs second, but the two listeners touch disjoint
    // parts of the state, so its effect is applied first here. It exists only
    // when keepaliveTime > 0; otherwise no timer is armed and removing g
    // changes nothing.
    CloseListener(s.(openStreams := s.openStreams - {g}, keepalive := s.keepalive - {g}), g)
  }

  /** A data chunk on attempt g's stream re-arms g's keepalive timer. */
  function AfterData(s: State, g: nat): (r: State)
    requires g in s.openStreams
    ensures Keeps(s, r) && r.events == s.events
    ensures s.policy.keepaliveTime > 0 ==> r == s.(keepalive := s.keepalive[g := 2 * s.policy.keepaliveTime])
    ensures s.policy.keepaliveTime <= 0 ==> r == s
    ensures Valid(s) ==> Valid(r)
  {
    if s.policy.keepaliveTime > 0 then s.(keepalive := s.keepalive[g := 2 * s.policy.keepaliveTime])
    else s
  }

  /** Attempt g's keepalive timer fires: reconnect with no wait unless destroyed. */
  function AfterKeepaliveTimeout(s: State, g: nat): (r: State)
    requires g in s.keepalive
    ensures Keeps(s, r) && r.destroyed == s.destroyed
    ensures g !in r.keepalive
    ensures s.destroyed ==> r == s.(keepalive := s.keepalive - {g})
    ensures !s.destroyed && !s.reconnecting ==>
      r.nRequests == s.nRequests + 1 && r.pendingWaits == s.pendingWaits
      && |r.events| > |s.events| && r.events[|s.events|] == Reconnecting
    ensures !s.destroyed && s.reconnecting ==> r == s.(keepalive := s.keepalive - {g})
    ensures Valid(s) ==> Valid(r)
  {
    var s1 := s.(keepalive := s.keepalive - {g});
    if !s1.destroyed then AfterReconnect(s1, 0) else s1
  }

  /** `destroy()`: set `destroyed`, abort, emit `destroy`. */
  function AfterDestroy(s: State): (r: State)
    ensures Keeps(s, r)
    ensures r.destroyed && r.reqSource.None?
    ensures s.reqSource.Some? ==> s.reqSource.value in r.cancelled
    ensures r.events == s.events + [Abort, Destroy]
    ensures r.nRequests == s.nRequests && r.inFlight == s.inFlight && r.pendingWaits == s.pendingWaits
    ensures Valid(s) ==> Valid(r)
  {
    var s1 := AfterAbort(s.(destroyed := true));
    CountConnectingAppendOther(s.events, [Abort, Destroy]);
    assert s1.events + [Destroy] == s.events + [Abort, Destroy];
    s1.(events := s1.events + [Destroy])
  }

  /** A new PersistentRequest: defaults, then a first `connect`. */
  function Construct(p: Policy): (r: State)
    ensures Valid(r)
    ensures r.nRequests == 1 && r.connecting && !r.connected && !r.reconnecting && !r.destroyed
    ensures r.events == [Connecting] && r.inFlight == {1} && r.reqSource == Some(1)
  {
    assert Valid(Initial(p));
    AfterConnect(Initial(p))
  }

  // ---------------------------------------------------------------- runs

  /** Everything that can happen to a PersistentRequest: a public call or a
      continuation firing. */
  datatype Input =
    | CallConnect
    | CallReconnect(wait: int)
    | CallAbort
    | CallDestroy
    | RequestResolved(attempt: nat)
    | RequestRejected(attempt: nat, failure: Failure)
    | StreamClosed(attempt: nat)
    | StreamData(attempt: nat)
    | KeepaliveFired(attempt: nat)
    | WaitElapsed(wait: int)

  /** A continuation can fire only when what it belongs to exists. */
  predicate Enabled(s: State, i: Input)
  {
    match i
    case RequestResolved(g) => g in s.inFlight
    case RequestRejected(g, _) => g in s.inFlight
    case StreamClosed(g) => g in s.openStreams
    case StreamData(g) => g in s.openStreams
    case KeepaliveFired(g) => g in s.keepalive
    case WaitElapsed(w) => w in s.pendingWaits
    case _ => true
  }

  function Step(s: State, i: Input): (r: State)
    ensures Keeps(s, r)
    ensures Valid(s) ==> Valid(r)
  {
    if !Enabled(s, i) then s
    else
      match i
      case CallConnect => AfterConnect(s)
      case CallReconnect(w) => AfterReconnect(s, w)
      case CallAbort => AfterAbort(s)
      case CallDestroy => AfterDestroy(s)
      case RequestResolved(g) => AfterResponse(s, g)
      case RequestRejected(g, f) => AfterRequestError(s, g, f)
      case StreamClosed(g) => AfterClose(s, g)
      case StreamData(g) => AfterData(s, g)
      case KeepaliveFired(g) => AfterKeepaliveTimeout(s, g)
      case WaitElapsed(w) => AfterReconnectWait(s, w)
  }

  function Run(s: State, inputs: seq<Input>): State
    decreases |inputs|
  {
    if inputs == [] then s else Run(Step(s, inputs[0]), inputs[1..])
  }

  /** Every run keeps the invariant, the options, the append-only log, and
      never assigns `reconnectOnError`. */
  lemma {:induction false} RunKeepsValid(s: State, inputs: seq<Input>)
    requires Valid(s)
    ensures Valid(Run(s, inputs)) && Keeps(s, Run(s, inputs))
    decreases |inputs|
  {
    if inputs != [] {
      RunKeepsValid(Step(s, inputs[0]), inputs[1..]);
    }
  }

  /** Events that a destroyed controller never emits again. */
  predicate IsLifecycleEvent(e: Event)
  {
    e.Connecting? || e.Reconnecting? || e.Close?
  }

  /** A destroyed step issues no request, adds no wait and logs no lifecycle event. */
  predicate InertStep(s: State, r: State)
  {
    && r.nRequests == s.nRequests
    && r.pendingWaits <= s.pendingWaits
    && s.events <= r.events
    && forall k :: |s.events| <= k < |r.events| ==> !IsLifecycleEvent(r.events[k])
  }

  /** The calls, split off to keep each proof small. */
  predicate IsCall(i: Input)
  {
    i.CallConnect? || i.CallReconnect? || i.CallAbort? || i.CallDestroy?
  }

  lemma DestroyedCallIsInert(s: State, i: Input)
    requires s.destroyed && s.reqSource.None? && IsCall(i)
    ensures InertStep(s, Step(s, i))
  {
    assert i.CallAbort? || i.CallDestroy? ==> Step(s, i).events[|s.events|..] == [Abort] || Step(s, i).events[|s.events|..] == [Abort, Destroy];
  }

  lemma DestroyedContinuationIsInert(s: State, i: Input)
    requires s.destroyed && s.reqSource.None? && !IsCall(i)
    ensures InertStep(s, Step(s, i))
  {
    var r := Step(s, i);
    if Enabled(s, i) {
      match i
      case RequestRejected(g, f) =>
        assert r.events == s.events + (if f.Failed? then FailureEvents(g, f.hasResponse) else []);
      case _ =>
    }
  }

  lemma DestroyedStepIsInert(s: State, i: Input)
    requires Valid(s) && s.destroyed
    ensures Step(s, i).nRequests == s.nRequests
    ensures Step(s, i).pendingWaits <= s.pendingWaits
    ensures forall k :: |s.events| <= k < |Step(s, i).events| ==> !IsLifecycleEvent(Step(s, i).events[k])
  {
    if IsCall(i) {
      DestroyedCallIsInert(s, i);
    } else {
      DestroyedContinuationIsInert(s, i);
    }
  }

  /** `destroyed` is absorbing: after it, no run issues a request, schedules
      a reconnection or reports a close. */
  lemma {:induction false} DestroyIsTerminal(s: State, inputs: seq<Input>)
    requires Valid(s) && s.destroyed
    ensures Run(s, inputs).destroyed
    ensures Run(s, inputs).nRequests == s.nRequests
    ensures Run(s, inputs).pendingWaits <= s.pendingWaits
    ensures forall k :: |s.events| <= k < |Run(s, inputs).events| ==> !IsLifecycleEvent(Run(s, inputs).events[k])
    decreases |inputs|
  {
    if inputs != [] {
      var t := Step(s, inputs[0]);
      DestroyedStepIsInert(s, inputs[0]);
      DestroyIsTerminal(t, inputs[1..]);
      RunKeepsValid(t, inputs[1..]);
      var r := Run(s, inputs);
      assert r == Run(t, inputs[1..]);
      forall k | |s.events| <= k < |r.events| ensures !IsLifecycleEvent(r.events[k]) {
        if k < |t.events| {
          assert r.events[k] == t.events[k];
        }
      }
    }
  }

  /** Reconnection is never scheduled twice: a second `reconnect`, whatever
      its argument, does nothing after a first one. */
  lemma ReconnectIsIdempotent(s: State, first: int, second: int)
    ensures AfterReconnect(AfterReconnect(s, first), second) == AfterReconnect(s, first)
  {
  }

  /** A second `destroy` changes nothing but the log, which gets another
      `abort` and `destroy`. */
  lemma DestroyTwice(s: State)
    ensures AfterDestroy(AfterDestroy(s)) ==
      AfterDestroy(s).(events := AfterDestroy(s).events + [Abort, Destroy])
  {
  }

  /** In every run of a constructed instance, a failed request never leads to
      a reconnection: the error path is guarded by `reconnectOnError`, which
      the class never sets. A failure clears all three flags. */
  lemma {:induction false} ErrorPathNeverReconnects(p: Policy, inputs: seq<Input>, g: nat, f: Failure)
    requires g in Run(Construct(p), inputs).inFlight
    ensures var s := Run(Construct(p), inputs);
      var r := AfterRequestError(s, g, f);
      && r.nRequests == s.nRequests && r.pendingWaits == s.pendingWaits
      && !r.connected && !r.connecting && !r.reconnecting
      && r.events == s.events + (if f.Failed? then FailureEvents(g, f.hasResponse) else [])
  {
    RunKeepsValid(Construct(p), inputs);
  }

  /** The `then` handler has no supersession check. A second `connect`
      aborts attempt 1; its cancellation rejects and clears `connecting`; a
      third `connect` then supersedes attempt 2 without cancelling it. When
      attempt 2 resolves, the instance is still marked connected and emits
      `response`, although attempt 3 is the current one. */
  lemma StaleResponseIsApplied(p: Policy)
    ensures var s1 := AfterConnect(Construct(p));
      1 in s1.inFlight
      && var s := AfterConnect(AfterRequestError(s1, 1, Cancel));
      && s.reqSource == Some(3) && 2 !in s.cancelled && 2 in s.inFlight
      && AfterResponse(s, 2).connected
      && AfterResponse(s, 2).events == s.events + [Response(2)]
  {
    var s1 := AfterConnect(Construct(p));
    assert s1.reqSource == Some(2) && s1.inFlight == {1, 2} && s1.cancelled == {1};
    var s2 := AfterRequestError(s1, 1, Cancel);
    assert !s2.connecting && !s2.connected && s2.reqSource == Some(2) && s2.cancelled == {1};
    var s := AfterConnect(s2);
    assert s.cancelled == {1} && s.inFlight == {2, 3};
  }

  /** A stale `close` is ignored: after a second `connect`, the first
      attempt's stream closing emits nothing and changes no flag. */
  lemma StaleCloseIsIgnored(s: State, g: nat)
    requires Valid(s) && g in s.openStreams && g < s.nRequests
    ensures AfterClose(s, g).events == s.events
    ensures AfterClose(s, g).connected == s.connected
    ensures AfterClose(s, g).nRequests == s.nRequests
  {
  }

  /** With `reconnectOnClose` and a positive wait, the close of the current
      stream while no reconnection is under way adds one pending wait. */
  lemma CloseSchedulesWait(s: State, g: nat)
    requires Valid(s) && g in s.openStreams && s.reqSource == Some(g)
    requires !s.reconnecting && !s.destroyed
    requires s.policy.reconnectOnClose && s.policy.waitBeforeReconnection > 0
    ensures AfterClose(s, g).pendingWaits == s.pendingWaits + multiset{s.policy.waitBeforeReconnection}
    ensures AfterClose(s, g).reconnecting && AfterClose(s, g).nRequests == s.nRequests
  {
    assert CloseReconnects(s.(openStreams := s.openStreams - {g}, keepalive := s.keepalive - {g}), g);
  }

  /** Cancellation is silent: once aborted, no stream's close is applied
      (abort deletes the current source, so every close is stale), and a
      cancelled request's rejection emits nothing and schedules nothing. */
  lemma AbortIsSilent(s: State, g: nat, f: Failure)
    ensures g in s.openStreams ==>
      AfterClose(AfterAbort(s), g).events == AfterAbort(s).events
      && AfterClose(AfterAbort(s), g).pendingWaits == s.pendingWaits
      && AfterClose(AfterAbort(s), g).connected == s.connected
    ensures g in s.inFlight && f.Cancel? ==>
      AfterRequestError(AfterAbort(s), g, f).events == AfterAbort(s).events
      && AfterRequestError(AfterAbort(s), g, f).pendingWaits == s.pendingWaits
  {
  }

  /** `connect` does not clear `reconnecting`, but any request settling does,
      so two reconnection waits can be pending: a caller's `connect` during a
      wait, then a close of the new attempt, schedules a second one. */
  lemma TwoWaitsCanBePending()
    ensures var p := Policy(500, true, 0);
      var s2 := AfterClose(AfterResponse(Construct(p), 1), 1);
      var s4 := AfterResponse(AfterConnect(s2), 2);
      s2.pendingWaits == multiset{500} && AfterClose(s4, 2).pendingWaits == multiset{500, 500}
  {
    var p := Policy(500, true, 0);
    var s0 := Construct(p);
    var s1 := AfterResponse(s0, 1);
    assert s1.reqSource == Some(1) && !s1.reconnecting && s1.pendingWaits == multiset{};
    CloseSchedulesWait(s1, 1);
    var s2 := AfterClose(s1, 1);
    var s3 := AfterConnect(s2);
    assert s3.reqSource == Some(2) && 2 in s3.inFlight && s3.pendingWaits == multiset{500};
    var s4 := AfterResponse(s3, 2);
    assert s4.pendingWaits == multiset{500};
    CloseSchedulesWait(s4, 2);
  }

  // ---------------------------------------------------------------- the class

  /**
   * PersistentRequest with its fields updated in place. Each method performs
   * one transition: its new state is the corresponding `AfterX` of the old
   * one, so the transition contracts above (including `Valid` preservation)
   * describe it. Besides the object's own fields (options, counters, flags,
   * `_reqSource`), the runtime state that the source keeps in closures,
   * timers and pending promises is held in fields too: `cancelled`,
   * `inFlight`, `openStreams`, `keepalive`, `pendingWaits`; `events` is what
   * `emit` delivered.
   */
  class PersistentRequest {
    const requestOptions: Uri.RequestOptions
    const options: Policy
    var reconnectOnError: bool
    var nRequests: nat
    var connecting: bool
    var connected: bool
    var reconnecting: bool
    var destroyed: bool
    var reqSource: Option<nat>
    var cancelled: set<nat>
    var inFlight: set<nat>
    var openStreams: set<nat>
    var keepalive: map<nat, int>
    var pendingWaits: multiset<int>
    var events: seq<Event>

    function Model(): State
      reads this
    {
      State(options, reconnectOnError, nRequests, connecting, connected, reconnecting, destroyed,
            reqSource, cancelled, inFlight, openStreams, keepalive, pendingWaits, events)
    }

    /** The `uri` getter. */
    function TargetUri(): (r: string)
      ensures Uri.Base(requestOptions) <= r
    {
      Uri.Build(requestOptions)
    }

    /** Applies the defaults and the caller's options, then connects. */
    constructor (requestOptions: Uri.RequestOptions, overrides: Overrides)
      ensures Model() == Construct(ResolvePolicy(overrides)) && Valid(Model())
      ensures this.requestOptions == requestOptions
    {
      this.requestOptions := requestOptions;
      options := ResolvePolicy(overrides);
      reconnectOnError := false;
      nRequests := 0;
      connecting, connected, reconnecting := false, false, false;
      destroyed := false;
      reqSource := None;
      cancelled, inFlight, openStreams := {}, {}, {};
      keepalive, pendingWaits, events := map[], multiset{}, [];
      new;
      Connect();
    }

    method Connect()
      modifies this
      ensures Model() == AfterConnect(old(Model()))
    {
      if destroyed {
        return;
      }
      if connecting || connected {
        Abort();
      }
      nRequests := nRequests + 1;
      connecting := true;
      events := events + [Event.Connecting];
      reqSource := Some(nRequests);
      inFlight := inFlight + {nRequests};
    }

    method Reconnect(wait: int)
      modifies this
      ensures Model() == AfterReconnect(old(Model()), wait)
    {
      if destroyed || reconnecting {
        return;
      }
      reconnecting := true;
      var w := if wait < 0 then options.waitBeforeReconnection else wait;
      events := events + [Event.Reconnecting];
      if w > 0 {
        // resumed by HandleReconnectWait
        pendingWaits := pendingWaits + multiset{w};
        return;
      }
      Connect();
    }

    method Abort()
      modifies this
      ensures Model() == AfterAbort(old(Model()))
    {
      if reqSource.Some? {
        cancelled := cancelled + {reqSource.value};
        reqSource := None;
      }
      events := events + [Event.Abort];
    }

    method Destroy()
      modifies this
      ensures Model() == AfterDestroy(old(Model()))
    {
      destroyed := true;
      Abort();
      events := events + [Event.Destroy];
    }

    /** The request promise of attempt g resolves. */
    method HandleResponse(g: nat)
      requires g in inFlight
      modifies this
      ensures Model() == AfterResponse(old(Model()), g)
    {
      inFlight := inFlight - {g};
      openStreams := openStreams + {g};
      connected := true;
      connecting := false;
      reconnecting := false;
      events := events + [Response(g)];
      if options.keepaliveTime > 0 {
        keepalive := keepalive[g := 2 * options.keepaliveTime];
      }
    }

    /** The request promise of attempt g rejects. */
    method HandleRequestError(g: nat, f: Failure)
      requires g in inFlight
      modifies this
      ensures Model() == AfterRequestError(old(Model()), g, f)
    {
      ghost var s := Model();
      inFlight := inFlight - {g};
      connected, connecting, reconnecting := false, false, false;
      ghost var s1 := s.(inFlight := s.inFlight - {g}, connected := false, connecting := false, reconnecting := false);
      assert Model() == s1;
      if f.Cancel? {
        return;
      }
      events := events + FailureEvents(g, f.hasResponse);
      assert Model() == s1.(events := s1.events + FailureEvents(g, f.hasResponse));
      if !destroyed && reconnectOnError {
        Reconnect(-1);
      }
    }

    /** The response stream of attempt g closes. */
    method HandleClose(g: nat)
      requires g in openStreams
      modifies this
      ensures Model() == AfterClose(old(Model()), g)
    {
      openStreams := openStreams - {g};
      keepalive := keepalive - {g};
      if reqSource == Some(g) {
        connected := false;
        events := events + [Event.Close];
        if !destroyed && options.reconnectOnClose {
          Reconnect(-1);
        }
      }
    }

    /** A data chunk arrives on attempt g's stream. */
    method HandleData(g: nat)
      requires g in openStreams
      modifies this
      ensures Model() == AfterData(old(Model()), g)
    {
      if options.keepaliveTime > 0 {
        keepalive := keepalive[g := 2 * options.keepaliveTime];
      }
    }

    /** Attempt g's keepalive timer fires. */
    method HandleKeepaliveTimeout(g: nat)
      requires g in keepalive
      modifies this
      ensures Model() == AfterKeepaliveTimeout(old(Model()), g)
    {
      keepalive := keepalive - {g};
      if !destroyed {
        Reconnect(0);
      }
    }

    /** A reconnection wait of `w` milliseconds elapses. */
    method HandleReconnectWait(w: int)
      requires w in pendingWaits
      modifies this
      ensures Model() == AfterReconnectWait(old(Model()), w)
    {
      pendingWaits := pendingWaits - multiset{w};
      if destroyed {
        return;
      }
      Connect();
    }
  }

  /** `new PersistentRequest(requestOptions, options)`, which throws for an
      argument that is not an object (or is null). */
  method Create(arg: Uri.Argument, overrides: Overrides) returns (r: Result<PersistentRequest, ConstructError>)
    ensures r.Success? <==> arg.ObjectArg?
    ensures r.Failure? ==> r.error == CheckRequestOptions(arg).error
    ensures r.Success? ==>
      fresh(r.value) && r.value.requestOptions == arg.options
      && r.value.Model() == Construct(ResolvePolicy(overrides))
  {
    match CheckRequestOptions(arg)
    case Failure(e) =>
      r := Failure(e);
    case Success(o) =>
      var pr := new PersistentRequest(o, overrides);
      r := Success(pr);
  }
}

=== FILE: events.dfy ===
/**
 * What a PersistentRequest emits, and how the environment may settle a request.
 * An attempt is named by its generation: the value of `nRequests` right after
 * the `connect` call that issued it.
 */
module Events {

  /** The named events, in the order they are emitted. */
  datatype Event =
    | Connecting
    | Response(attempt: nat)
    | RequestError(attempt: nat)
    | Error(attempt: nat)
    | Close
    | Reconnecting
    | Abort
    | Destroy

  /** How a request promise rejects: through its cancel token, or with an error
      that does or does not carry the server's response (`err.response`). */
  datatype Failure = Cancel | Failed(hasResponse: bool)

  /** Number of `connecting` events in a log. */
  function CountConnecting(log: seq<Event>): nat
  {
    if log == [] then 0
    else (if log[0].Connecting? then 1 else 0) + CountConnecting(log[1..])
  }

  /** Counting is additive over concatenated logs. */
  lemma {:induction false} CountConnectingAppend(a: seq<Event>, b: seq<Event>)
    ensures CountConnecting(a + b) == CountConnecting(a) + CountConnecting(b)
  {
    if a != [] {
      assert (a + b)[1..] == a[1..] + b;
      CountConnectingAppend(a[1..], b);
    } else {
      assert a + b == b;
    }
  }

  /** Appending events other than `connecting` leaves the count alone. */
  lemma CountConnectingAppendOther(a: seq<Event>, b: seq<Event>)
    requires forall i :: 0 <= i < |b| ==> !b[i].Connecting?
    ensures CountConnecting(a + b) == CountConnecting(a)
  {
    CountConnectingAppend(a, b);
    NoConnecting(b);
  }

  lemma {:induction false} NoConnecting(b: seq<Event>)
    requires forall i :: 0 <= i < |b| ==> !b[i].Connecting?
    ensures CountConnecting(b) == 0
  {
    if b != [] {
      NoConnecting(b[1..]);
    }
  }
}

=== FILE: fetch_adapter.dfy ===
/**
 * The header and option handling of the fetch adapter (lib/adapter/fetch.js):
 * how the outgoing request's headers, its `Authorization` credential and its
 * `RequestInit` are built, and how a response's headers are copied into the
 * adapter's result.
 *
 * A Fetch `Headers` object is modelled as a map from the lower-cased header
 * name to the list of its values in insertion order, which is how its
 * name lookups behave (names are compared byte-case-insensitively, values
 * of one name are combined with ", ").
 */
module FetchAdapter {
  import opened Wrappers
  import opened Text

  const ContentType: string := "content-type"
  const Authorization: string := "Authorization"
  const JsonType: string := "application/json"

  // ---------------------------------------------------------------- header tables

  type HeaderTable = map<string, seq<string>>

  /** Names are stored lower-cased, and a stored name has at least one value. */
  predicate WellFormed(h: HeaderTable)
  {
    forall k :: k in h ==> Lower(k) == k && h[k] != []
  }

  lemma LowerIsIdempotent(s: string)
    ensures Lower(Lower(s)) == Lower(s)
  {
  }

  /** All values stored under `name`, whatever its case. */
  function Values(h: HeaderTable, name: string): seq<string>
  {
    if Lower(name) in h then h[Lower(name)] else []
  }

  /** The values of one name joined with ", " (the combined value). */
  function Combine(vs: seq<string>): (r: string)
    requires vs != []
    ensures |vs| == 1 ==> r == vs[0]
    ensures |vs| >= 2 ==> |r| >= 2
  {
    if |vs| == 1 then vs[0] else vs[0] + ", " + Combine(vs[1..])
  }

  /** `headers.get(name)`: null when absent, else the combined value. It is
      the empty string exactly when the one value stored is empty. */
  function GetValue(h: HeaderTable, name: string): (r: Option<string>)
    requires WellFormed(h)
    ensures r.None? <==> Values(h, name) == []
    ensures r.Some? ==> (r.value == "" <==> Values(h, name) == [""])
  {
    var vs := Values(h, name);
    if vs == [] then None else Some(Combine(vs))
  }

  /** JavaScript truthiness of what `get` returns. */
  predicate Truthy(v: Option<string>)
  {
    v.Some? && v.value != ""
  }

  /** `headers.append(name, value)`. */
  function AppendValue(h: HeaderTable, name: string, value: string): (r: HeaderTable)
    ensures WellFormed(h) ==> WellFormed(r)
    ensures Values(r, name) == Values(h, name) + [value]
    ensures forall n :: Lower(n) != Lower(name) ==> Values(r, n) == Values(h, n)
  {
    LowerIsIdempotent(name);
    h[Lower(name) := Values(h, name) + [value]]
  }

  /** `headers.delete(name)`. */
  function DeleteName(h: HeaderTable, name: string): (r: HeaderTable)
    ensures WellFormed(h) ==> WellFormed(r)
    ensures Values(r, name) == []
    ensures forall n :: Lower(n) != Lower(name) ==> Values(r, n) == Values(h, n)
  {
    h - {Lower(name)}
  }

  /** `headers.set(name, value)`: the one value of `name` afterwards. */
  function SetValue(h: HeaderTable, name: string, value: string): (r: HeaderTable)
    ensures WellFormed(h) ==> WellFormed(r)
    ensures Values(r, name) == [value]
    ensures forall n :: Lower(n) != Lower(name) ==> Values(r, n) == Values(h, n)
  {
    LowerIsIdempotent(name);
    h[Lower(name) := [value]]
  }

  /** A request's `Headers`, changed in place. */
  class Headers {
    var table: HeaderTable

    constructor (table: HeaderTable)
      requires WellFormed(table)
      ensures this.table == table
    {
      this.table := table;
    }

    method Get(name: string) returns (r: Option<string>)
      requires WellFormed(table)
      ensures r.None? <==> Values(table, name) == []
      ensures r.Some? ==> r.value == Combine(Values(table, name))
    {
      r := GetValue(table, name);
    }

    method Has(name: string) returns (b: bool)
      requires WellFormed(table)
      ensures b <==> Values(table, name) != []
    {
      b := Lower(name) in table;
    }

    method Append(name: string, value: string)
      modifies this
      ensures table == AppendValue(old(table), name, value)
    {
      table := table[Lower(name) := Values(table, name) + [value]];
    }

    method Delete(name: string)
      modifies this
      ensures table == DeleteName(old(table), name)
    {
      table := table - {Lower(name)};
    }

    method Set(name: string, value: string)
      modifies this
      ensures table == SetValue(old(table), name, value)
    {
      table := table[Lower(name) := [value]];
    }
  }

  // ---------------------------------------------------------------- setupRequestHeaders

  /** What `config.data` is, as far as the adapter looks at it: undefined,
      a FormData, or anything else (null included). */
  datatype Body = Undefined | FormData | Other

  /** The filter on configured headers: a content-type (compared after
      `toUpperCase`) is copied only for a body that is defined and not a
      FormData. */
  predicate Forwards(key: string, data: Body)
  {
    Upper(key) != Upper(ContentType) || data.Other?
  }

  /** The values of the configured headers whose key is `name` up to case. */
  function PairValues(hs: seq<(string, string)>, name: string): seq<string>
    decreases |hs|
  {
    if hs == [] then []
    else PairValues(hs[..|hs| - 1], name)
         + (if Lower(hs[|hs| - 1].0) == Lower(name) then [hs[|hs| - 1].1] else [])
  }

  /** The table after the `forEach` over the configured headers. */
  function AppendConfigured(h: HeaderTable, hs: seq<(string, string)>, data: Body): (r: HeaderTable)
    ensures WellFormed(h) ==> WellFormed(r)
    decreases |hs|
  {
    if hs == [] then h
    else
      var prev := AppendConfigured(h, hs[..|hs| - 1], data);
      var (key, val) := hs[|hs| - 1];
      if Forwards(key, data) then AppendValue(prev, key, val) else prev
  }

  /** The table after the default content-type is removed. */
  function ClearDefault(h: HeaderTable): (r: HeaderTable)
    requires WellFormed(h)
    ensures WellFormed(r)
    ensures Truthy(GetValue(h, ContentType)) ==> Values(r, ContentType) == []
    ensures !Truthy(GetValue(h, ContentType)) ==> r == h
    ensures forall n :: Lower(n) != ContentType ==> Values(r, n) == Values(h, n)
  {
    ContentTypeIsLower();
    if Truthy(GetValue(h, ContentType)) then DeleteName(h, ContentType) else h
  }

  /** The whole of `setupRequestHeaders` on a table. */
  function RequestHeaders(h: HeaderTable, hs: seq<(string, string)>, data: Body): (r: HeaderTable)
    requires WellFormed(h)
    ensures WellFormed(r)
  {
    var withConfig := AppendConfigured(ClearDefault(h), hs, data);
    if !data.Undefined? && Values(withConfig, ContentType) == [] then SetValue(withConfig, ContentType, JsonType)
    else withConfig
  }

  lemma ContentTypeIsLower()
    ensures Lower(ContentType) == ContentType
  {
  }

  /** Whether `name` is content-type, up to ASCII case. */
  predicate IsContentType(name: string)
  {
    Lower(name) == ContentType
  }

  /** The filter, stated with lower-casing. */
  lemma ForwardsIff(key: string, data: Body)
    ensures Forwards(key, data) <==> !IsContentType(key) || data.Other?
  {
    UpperEqIffLowerEq(key, ContentType);
    ContentTypeIsLower();
  }

  /** What one turn of the loop adds under `name`. */
  lemma AppendStep(prev: HeaderTable, key: string, val: string, data: Body, name: string)
    ensures Values(if Forwards(key, data) then AppendValue(prev, key, val) else prev, name) ==
      Values(prev, name) + (if Lower(key) == Lower(name) && (!IsContentType(name) || data.Other?) then [val] else [])
  {
    ForwardsIff(key, data);
  }

  /** The configured values that the loop appends under `name`: all of them,
      except that content-type values are copied only for an `Other` body. */
  lemma {:induction false} AppendConfiguredValues(h: HeaderTable, hs: seq<(string, string)>, data: Body, name: string)
    ensures Values(AppendConfigured(h, hs, data), name) ==
      Values(h, name) + (if IsContentType(name) && !data.Other? then [] else PairValues(hs, name))
    decreases |hs|
  {
    if hs != [] {
      var init := hs[..|hs| - 1];
      var key, val := hs[|hs| - 1].0, hs[|hs| - 1].1;
      var prev := AppendConfigured(h, init, data);
      assert AppendConfigured(h, hs, data) == (if Forwards(key, data) then AppendValue(prev, key, val) else prev);
      AppendConfiguredValues(h, init, data, name);
      AppendStep(prev, key, val, data, name);
      ContentTypeIsLower();
      assert PairValues(hs, name) == PairValues(init, name) + (if Lower(key) == Lower(name) then [val] else []);
    }
  }

  /** Every header other than content-type is kept, and every configured
      header of that name is appended after what was there. */
  lemma OtherHeadersAppended(h: HeaderTable, hs: seq<(string, string)>, data: Body, name: string)
    requires WellFormed(h)
    requires !IsContentType(name)
    ensures Values(RequestHeaders(h, hs, data), name) == Values(h, name) + PairValues(hs, name)
  {
    ContentTypeIsLower();
    var cleared := ClearDefault(h);
    assert Values(cleared, name) == Values(h, name);
    AppendConfiguredValues(cleared, hs, data, name);
    var w := AppendConfigured(cleared, hs, data);
    assert Values(RequestHeaders(h, hs, data), name) == Values(w, name);
  }

  /** The content-type the request ends with. What was there survives only
      when `get` returned a falsy value (absent, or a single empty value);
      configured ones are appended only for an `Other` body; a defined body
      with no content-type at that point gets `application/json`, and an
      undefined body gets nothing more. */
  lemma ContentTypeOutcome(h: HeaderTable, hs: seq<(string, string)>, data: Body)
    requires WellFormed(h)
    ensures var kept := if Truthy(GetValue(h, ContentType)) then [] else Values(h, ContentType);
      var given := if data.Other? then PairValues(hs, ContentType) else [];
      Values(RequestHeaders(h, hs, data), ContentType) ==
        if !data.Undefined? && kept + given == [] then [JsonType] else kept + given
  {
    ContentTypeIsLower();
    var kept := if Truthy(GetValue(h, ContentType)) then [] else Values(h, ContentType);
    var given := if data.Other? then PairValues(hs, ContentType) else [];
    var cleared := ClearDefault(h);
    assert Values(cleared, ContentType) == kept;
    AppendConfiguredValues(cleared, hs, data, ContentType);
    var w := AppendConfigured(cleared, hs, data);
    assert Values(w, ContentType) == kept + given;
  }

  /** A FormData body loses its own content-type: it is sent as JSON unless
      the request already had an empty content-type. */
  lemma FormDataIsSentAsJson(h: HeaderTable, hs: seq<(string, string)>)
    requires WellFormed(h) && Values(h, ContentType) != [""]
    ensures GetValue(RequestHeaders(h, hs, FormData), ContentType) == Some(JsonType)
  {
    ContentTypeOutcome(h, hs, FormData);
  }

  /** With no body the request carries no content-type, except an empty one
      it already had. */
  lemma NoBodyNoContentType(h: HeaderTable, hs: seq<(string, string)>)
    requires WellFormed(h) && Values(h, ContentType) != [""]
    ensures Values(RequestHeaders(h, hs, Undefined), ContentType) == []
  {
    ContentTypeOutcome(h, hs, Undefined);
  }

  /** `setupRequestHeaders(request, config)`. */
  method SetupRequestHeaders(request: Headers, headers: seq<(string, string)>, data: Body)
    requires WellFormed(request.table)
    modifies request
    ensures WellFormed(request.table)
    ensures request.table == RequestHeaders(old(request.table), headers, data)
  {
    var current := request.Get(ContentType);
    if current.Some? && current.value != "" {
      request.Delete(ContentType);
    }
    ghost var cleared := request.table;
    assert cleared == ClearDefault(old(request.table));
    var i := 0;
    while i < |headers|
      invariant 0 <= i <= |headers|
      invariant request.table == AppendConfigured(cleared, headers[..i], data)
    {
      var (key, val) := headers[i];
      assert headers[..i + 1][..i] == headers[..i];
      if Upper(key) != Upper(ContentType) || (!data.Undefined? && !data.FormData?) {
        request.Append(key, val);
      }
      i := i + 1;
    }
    assert headers[..|headers|] == headers;
    var has := request.Has(ContentType);
    if !data.Undefined? && !has {
      request.Set(ContentType, JsonType);
    }
  }

  // ---------------------------------------------------------------- setupAuthHeader

  /** `config.auth`: each field may be missing. */
  datatype AuthConfig = AuthConfig(username: Option<string>, password: Option<string>)

  /** A missing or empty field counts as "". */
  function OrEmpty(v: Option<string>): (r: string)
    ensures v.Some? ==> r == v.value
    ensures v.None? ==> r == ""
  {
    match v case Some(s) => s case None => ""
  }

  /** The user-pass of the configured credentials: the password is turned
      into its UTF-8 bytes, one Latin-1 character per byte; the username is
      used as given. */
  function ConfiguredUserPass(a: AuthConfig): (r: string)
    ensures var u := OrEmpty(a.username);
      |r| > |u| && r[..|u|] == u && r[|u|] == ':' && IsLatin1(r[|u| + 1..])
  {
    OrEmpty(a.username) + ":" + Utf8AsLatin1(OrEmpty(a.password))
  }

  /** A value of the Basic scheme: "Basic " and the encoded user-pass. */
  predicate IsBasic(v: string)
  {
    |v| >= 6 && v[..6] == "Basic "
  }

  /** The `Authorization` value, if any. `urlAuth` is the (decoded) userinfo
      of `config.url`; `btoa` failing makes the adapter throw. */
  function BasicCredential(urlAuth: Option<string>, auth: Option<AuthConfig>): (r: Result<Option<string>, EncodeError>)
    ensures Truthy(urlAuth) ==> (r.Success? <==> IsLatin1(urlAuth.value))
    ensures Truthy(urlAuth) && r.Success? ==>
      r.value.Some? && IsBasic(r.value.value) && Base64Decode(r.value.value[6..]) == Some(Latin1Bytes(urlAuth.value))
    ensures !Truthy(urlAuth) && auth.Some? ==> (r.Success? <==> IsLatin1(ConfiguredUserPass(auth.value)))
    ensures !Truthy(urlAuth) && auth.Some? && r.Success? ==>
      r.value.Some? && IsBasic(r.value.value)
      && Base64Decode(r.value.value[6..]) == Some(Latin1Bytes(ConfiguredUserPass(auth.value)))
    ensures !Truthy(urlAuth) && auth.None? ==> r == Success(None)
  {
    if Truthy(urlAuth) then
      match Btoa(urlAuth.value)
      case Success(b) => assert ("Basic " + b)[6..] == b; Success(Some("Basic " + b))
      case Failure(e) => Failure(e)
    else if auth.Some? then
      match Btoa(ConfiguredUserPass(auth.value))
      case Success(b) => assert ("Basic " + b)[6..] == b; Success(Some("Basic " + b))
      case Failure(e) => Failure(e)
    else Success(None)
  }

  /** URL userinfo wins: with it, `config.auth` is not looked at. */
  lemma UrlCredentialsWin(u: string, a: Option<AuthConfig>, b: Option<AuthConfig>)
    requires u != ""
    ensures BasicCredential(Some(u), a) == BasicCredential(Some(u), b)
  {
  }

  lemma Latin1Concat(a: string, b: string)
    ensures IsLatin1(a + b) <==> IsLatin1(a) && IsLatin1(b)
  {
    if IsLatin1(a + b) {
      forall i | 0 <= i < |a| ensures a[i] as int < 256 {
        assert (a + b)[i] == a[i];
      }
      forall i | 0 <= i < |b| ensures b[i] as int < 256 {
        assert (a + b)[|a| + i] == b[i];
      }
    }
  }

  /** Configured credentials can only fail on the username: the password is
      always made encodable, the username is not. */
  lemma ConfiguredCredentialFailsOnlyOnUsername(a: AuthConfig)
    ensures BasicCredential(None, Some(a)).Success? <==> IsLatin1(OrEmpty(a.username))
  {
    Latin1Concat(OrEmpty(a.username), ":");
    Latin1Concat(OrEmpty(a.username) + ":", Utf8AsLatin1(OrEmpty(a.password)));
  }

  /** `setupAuthHeader(request, config)`: sets `Authorization` when there is a
      credential; a `btoa` failure leaves the headers alone and is returned. */
  method SetupAuthHeader(request: Headers, urlAuth: Option<string>, auth: Option<AuthConfig>)
      returns (r: Result<(), EncodeError>)
    modifies request
    ensures r.Failure? <==> BasicCredential(urlAuth, auth).Failure?
    ensures BasicCredential(urlAuth, auth) == Success(None) || r.Failure? ==> request.table == old(request.table)
    ensures BasicCredential(urlAuth, auth).Success? && BasicCredential(urlAuth, auth).value.Some? ==>
      request.table == SetValue(old(request.table), Authorization, BasicCredential(urlAuth, auth).value.value)
  {
    match BasicCredential(urlAuth, auth)
    case Failure(e) =>
      r := Failure(e);
    case Success(None) =>
      r := Success(());
    case Success(Some(v)) =>
      request.Set(Authorization, v);
      r := Success(());
  }

  // ---------------------------------------------------------------- reqOptions

  datatype CredentialsMode = Include | Omit

  /** The `RequestInit` the adapter builds (without its abort signal);
      `verb` is its `method` member. */
  datatype RequestInit = RequestInit(
    verb: string,
    body: Body,
    credentials: CredentialsMode,
    redirect: string,
    mode: string)

  /** `reqOptions`; `verb` is `config.method`. */
  function MakeRequestInit(verb: string, data: Body, withCredentials: bool): (r: RequestInit)
    ensures HasNoLowerLetter(r.verb) && Lower(r.verb) == Lower(verb)
    ensures r.body == data
    ensures r.credentials == Include <==> withCredentials
    ensures r.redirect == "manual" && r.mode == "cors"
  {
    UpperIsCaseInsensitive(verb);
    RequestInit(Upper(verb), data, if withCredentials then Include else Omit, "manual", "cors")
  }

  // ---------------------------------------------------------------- responseBuilder

  /** What the adapter resolves with. */
  datatype AdapterResponse<D, C, R> = AdapterResponse(
    data: D,
    status: int,
    statusText: string,
    headers: map<string, string>,
    config: C,
    request: R)

  /** The value the last pair with key `k` carries, if any. */
  function LastValue(pairs: seq<(string, string)>, k: string): (r: Option<string>)
    ensures r.None? <==> forall i :: 0 <= i < |pairs| ==> pairs[i].0 != k
    decreases |pairs|
  {
    if pairs == [] then None
    else if pairs[|pairs| - 1].0 == k then Some(pairs[|pairs| - 1].1)
    else LastValue(pairs[..|pairs| - 1], k)
  }

  /** `responseBuilder(data)`; `pairs` is what `response.headers.forEach`
      yields, as (key, value). */
  method BuildResponse<D, C, R>(data: D, status: int, statusText: string,
                                pairs: seq<(string, string)>, config: C, request: R)
      returns (r: AdapterResponse<D, C, R>)
    ensures r.data == data && r.status == status && r.statusText == statusText
    ensures r.config == config && r.request == request
    ensures forall k :: k in r.headers <==> LastValue(pairs, k).Some?
    ensures forall k :: k in r.headers ==> r.headers[k] == LastValue(pairs, k).value
  {
    var headers: map<string, string> := map[];
    var i := 0;
    while i < |pairs|
      invariant 0 <= i <= |pairs|
      invariant forall k :: k in headers <==> LastValue(pairs[..i], k).Some?
      invariant forall k :: k in headers ==> headers[k] == LastValue(pairs[..i], k).value
    {
      var (key, val) := pairs[i];
      assert pairs[..i + 1][..i] == pairs[..i];
      headers := headers[key := val];
      i := i + 1;
    }
    assert pairs[..|pairs|] == pairs;
    r := AdapterResponse(data, status, statusText, headers, config, request);
  }

  /** When the keys are distinct, as `forEach` over a `Headers` object gives
      them, every pair is copied as it is. */
  lemma {:induction false} DistinctKeysAreCopied(pairs: seq<(string, string)>, i: nat)
    requires i < |pairs|
    requires forall a, b :: 0 <= a < b < |pairs| ==> pairs[a].0 != pairs[b].0
    ensures LastValue(pairs, pairs[i].0) == Some(pairs[i].1)
    decreases |pairs|
  {
    if i < |pairs| - 1 {
      assert pairs[|pairs| - 1].0 != pairs[i].0;
      DistinctKeysAreCopied(pairs[..|pairs| - 1], i);
    }
  }
}

=== FILE: legacy.dfy ===
/**
 * The first version of PersistentRequest (index.js at the repository root).
 *
 * Same shape as the Controller module, with the older behaviour:
 *   - one cancel source, created by the constructor and never handed to a
 *     request, so cancelling it settles nothing;
 *   - `connect` always aborts first, and clears `reqError`;
 *   - `abort` emits `abort` before cancelling; every response registers a
 *     one-shot `abort` listener that destroys its stream;
 *   - every `close` listener acts, whatever attempt it belongs to, and always
 *     reconnects unless destroyed (`reconnectOnClose` is not consulted);
 *   - a single keepalive timer, armed by data only, with delay keepaliveTime;
 *   - every non-cancel failure emits `error` and records `reqError`.
 */
module LegacyController {
  import opened Wrappers
  import opened Events
  import Uri
  import Controller

  type Policy = Controller.Policy

  /** The explicit check throws a plain Error; `null` passes it and then
      fails (TypeError) when the `uri` getter destructures it during the first
      `connect`. */
  datatype ConstructError = NotAnObject | NullOptions

  function CheckRequestOptions(a: Uri.Argument): (r: Result<Uri.RequestOptions, ConstructError>)
    ensures r.Success? <==> a.ObjectArg?
    ensures r.Success? ==> r.value == a.options
    ensures r == Failure(NotAnObject) <==> a.OtherArg?
    ensures r == Failure(NullOptions) <==> a.NullArg?
  {
    match a
    case ObjectArg(o) => Success(o)
    case NullArg => Failure(NullOptions)
    case OtherArg => Failure(NotAnObject)
  }

  // ---------------------------------------------------------------- state

  /**
   * Attempt g is the request issued by the g-th `connect`.
   *   sourceCancelled   whether the one cancel source has been cancelled
   *   reqError          the attempt whose failure `reqError` holds, if any
   *   inFlight          attempts whose request promise has not settled
   *   openStreams       attempts whose response stream has not closed
   *   abortListeners    attempts whose one-shot `abort` listener is registered
   *   destroyRequested  attempts whose stream an `abort` listener destroyed
   *   keepalive         the delay of the one armed keepalive timer, if any
   *   pendingWaits      reconnection waits in progress, by delay
   *   events            everything emitted so far
   */
  datatype State = State(
    policy: Policy,
    reconnectOnError: bool,
    nRequests: nat,
    connecting: bool,
    connected: bool,
    reconnecting: bool,
    destroyed: bool,
    sourceCancelled: bool,
    reqError: Option<nat>,
    inFlight: set<nat>,
    openStreams: set<nat>,
    abortListeners: set<nat>,
    destroyRequested: set<nat>,
    keepalive: Option<int>,
    pendingWaits: multiset<int>,
    events: seq<Event>)

  /** The fields as the constructor sets them, before its call to `connect`. */
  function Initial(p: Policy): (r: State)
    ensures Valid(r) && r.policy == p && !r.reconnectOnError
    ensures r.nRequests == 0 && r.events == [] && r.inFlight == {} && !r.sourceCancelled
  {
    State(p, false, 0, false, false, false, false, false, None, {}, {}, {}, {}, None, multiset{}, [])
  }

  predicate Valid(s: State)
  {
    && (forall g :: g in s.inFlight ==> 1 <= g <= s.nRequests)
    && (forall g :: g in s.openStreams ==> 1 <= g <= s.nRequests)
    && (forall g :: g in s.abortListeners ==> 1 <= g <= s.nRequests)
    && (s.reqError.Some? ==> 1 <= s.reqError.value <= s.nRequests)
    && s.inFlight !! s.openStreams
    // a stream still open either has its abort listener or was destroyed
    && s.openStreams <= s.abortListeners + s.destroyRequested
    && (s.keepalive.Some? ==> s.keepalive.value == s.policy.keepaliveTime > 0)
    && (forall w :: w in s.pendingWaits ==> w > 0)
    && CountConnecting(s.events) == s.nRequests
  }

  predicate Keeps(s: State, r: State)
  {
    && r.policy == s.policy
    && r.reconnectOnError == s.reconnectOnError
    && s.events <= r.events
    && s.nRequests <= r.nRequests
    && (s.destroyed ==> r.destroyed)
    && (s.sourceCancelled ==> r.sourceCancelled)
  }

  // ---------------------------------------------------------------- transitions

  /** `abort()`: emit `abort` (each registered listener destroys its stream
      and is removed), then cancel the source, which no request listens to. */
  function AfterAbort(s: State): (r: State)
    ensures Keeps(s, r) && r.destroyed == s.destroyed && r.nRequests == s.nRequests
    ensures r.events == s.events + [Abort] && r.sourceCancelled
    ensures r.abortListeners == {} && r.destroyRequested == s.destroyRequested + s.abortListeners
    ensures Valid(s) ==> r.openStreams <= r.destroyRequested
    ensures r.inFlight == s.inFlight && r.openStreams == s.openStreams
    ensures r.connecting == s.connecting && r.connected == s.connected && r.reconnecting == s.reconnecting
    ensures r.keepalive == s.keepalive && r.pendingWaits == s.pendingWaits && r.reqError == s.reqError
    ensures Valid(s) ==> Valid(r)
  {
    CountConnectingAppendOther(s.events, [Abort]);
    s.(events := s.events + [Abort],
       destroyRequested := s.destroyRequested + s.abortListeners, abortListeners := {},
       sourceCancelled := true)
  }

  /** `connect()`: nothing once destroyed; otherwise abort unconditionally,
      count the attempt, clear `reqError`, announce and issue it. */
  function AfterConnect(s: State): (r: State)
    ensures Keeps(s, r) && r.destroyed == s.destroyed
    ensures s.destroyed ==> r == s
    ensures !s.destroyed ==>
      && r.nRequests == s.nRequests + 1
      && r.connecting && r.reqError.None? && r.sourceCancelled
      && r.inFlight == s.inFlight + {r.nRequests}
      && r.events == s.events + [Abort, Connecting]
      && r.abortListeners == {}
      && (Valid(s) ==> r.openStreams <= r.destroyRequested)
    ensures r.connected == s.connected && r.reconnecting == s.reconnecting
    ensures r.openStreams == s.openStreams && r.keepalive == s.keepalive && r.pendingWaits == s.pendingWaits
    ensures Valid(s) ==> Valid(r)
  {
    if s.destroyed then s
    else
      var s1 := AfterAbort(s);
      var g := s1.nRequests + 1;
      CountConnectingAppend(s1.events, [Connecting]);
      assert s1.events + [Connecting] == s.events + [Abort, Connecting];
      s1.(nRequests := g, reqError := None, connecting := true,
          events := s1.events + [Connecting], inFlight := s1.inFlight + {g})
  }

  function EffectiveWait(s: State, wait: int): (r: int)
    ensures wait >= 0 ==> r == wait
    ensures r < 0 ==> r == s.policy.waitBeforeReconnection
  {
    if wait < 0 then s.policy.waitBeforeReconnection else wait
  }

  /** `reconnect(wait)`, as in the later version. */
  function AfterReconnect(s: State, wait: int): (r: State)
    ensures Keeps(s, r) && r.destroyed == s.destroyed
    ensures s.destroyed || s.reconnecting ==> r == s
    ensures !s.destroyed && !s.reconnecting ==>
      && r.reconnecting
      && |r.events| > |s.events| && r.events[|s.events|] == Reconnecting
      && (EffectiveWait(s, wait) > 0 ==>
            r.pendingWaits == s.pendingWaits + multiset{EffectiveWait(s, wait)}
            && r.nRequests == s.nRequests && r.events == s.events + [Reconnecting])
      && (EffectiveWait(s, wait) <= 0 ==>
            r.pendingWaits == s.pendingWaits && r.nRequests == s.nRequests + 1 && r.connecting)
    ensures r.connected == s.connected && r.openStreams == s.openStreams && r.keepalive == s.keepalive
    ensures Valid(s) ==> Valid(r)
  {
    if s.destroyed || s.reconnecting then s
    else
      var w := EffectiveWait(s, wait);
      CountConnectingAppendOther(s.events, [Reconnecting]);
      var s1 := s.(reconnecting := true, events := s.events + [Reconnecting]);
      if w > 0 then s1.(pendingWaits := s1.pendingWaits + multiset{w})
      else AfterConnect(s1)
  }

  function AfterReconnectWait(s: State, w: int): (r: State)
    requires w in s.pendingWaits
    ensures Keeps(s, r) && r.destroyed == s.destroyed
    ensures r.pendingWaits == s.pendingWaits - multiset{w}
    ensures s.destroyed ==> r == s.(pendingWaits := s.pendingWaits - multiset{w})
    ensures !s.destroyed ==> r.nRequests == s.nRequests + 1 && r.connecting
    ensures Valid(s) ==> Valid(r)
  {
    var s1 := s.(pendingWaits := s.pendingWaits - multiset{w});
    if s1.destroyed then s1 else AfterConnect(s1)
  }

  /** The request of attempt g resolves: set the flags, emit `response`,
      attach the stream's `close` listener and a one-shot `abort` listener.
      No keepalive timer is armed until data arrives. */
  function AfterResponse(s: State, g: nat): (r: State)
    requires g in s.inFlight
    ensures Keeps(s, r) && r.destroyed == s.destroyed && r.nRequests == s.nRequests
    ensures r.connected && !r.connecting && !r.reconnecting
    ensures r.events == s.events + [Response(g)]
    ensures g !in r.inFlight && g in r.openStreams && g in r.abortListeners
    ensures r.keepalive == s.keepalive && r.pendingWaits == s.pendingWaits && r.reqError == s.reqError
    ensures Valid(s) ==> Valid(r)
  {
    CountConnectingAppendOther(s.events, [Response(g)]);
    s.(inFlight := s.inFlight - {g}, openStreams := s.openStreams + {g},
       abortListeners := s.abortListeners + {g},
       connected := true, connecting := false, reconnecting := false,
       events := s.events + [Response(g)])
  }

  /** The request of attempt g rejects: clear the flags; a cancellation is
      silent, any other failure emits `error` and becomes `reqError`. */
  function AfterRequestError(s: State, g: nat, f: Failure): (r: State)
    requires g in s.inFlight
    ensures Keeps(s, r) && r.destroyed == s.destroyed
    ensures Valid(s) ==> g !in r.inFlight
    ensures f.Cancel? ==> r.events == s.events && r.reqError == s.reqError && r.nRequests == s.nRequests
    ensures f.Failed? ==> s.events + [Error(g)] <= r.events
    ensures !s.reconnectOnError ==>
      && (f.Failed? ==> r.reqError == Some(g))
      && !r.connected && !r.connecting && !r.reconnecting
      && r.nRequests == s.nRequests && r.pendingWaits == s.pendingWaits
      && r.events == s.events + (if f.Failed? then [Error(g)] else [])
    ensures Valid(s) ==> Valid(r)
  {
    var s1 := s.(inFlight := s.inFlight - {g}, connected := false, connecting := false, reconnecting := false);
    match f
    case Cancel => s1
    case Failed(_) =>
      CountConnectingAppendOther(s1.events, [Error(g)]);
      var s2 := s1.(events := s1.events + [Error(g)], reqError := Some(g));
      if !s2.destroyed && s2.reconnectOnError then AfterReconnect(s2, -1) else s2
  }

  /** The stream of attempt g closes: its listener clears the one keepalive
      timer, clears `connected`, emits `close` and reconnects unless
      destroyed, whichever attempt g is. */
  function AfterClose(s: State, g: nat): (r: State)
    requires g in s.openStreams
    ensures Keeps(s, r) && r.destroyed == s.destroyed
    ensures g !in r.openStreams && r.keepalive.None? && !r.connected
    ensures |r.events| > |s.events| && r.events[|s.events|] == Close
    ensures s.destroyed ==> r.events == s.events + [Close] && r.nRequests == s.nRequests
    ensures !s.destroyed && !s.reconnecting ==>
      |r.events| > |s.events| + 1 && r.events[|s.events| + 1] == Reconnecting && r.reconnecting
    ensures Valid(s) ==> Valid(r)
  {
    CountConnectingAppendOther(s.events, [Close]);
    var s1 := s.(openStreams := s.openStreams - {g}, keepalive := None, connected := false,
                 events := s.events + [Close]);
    if !s1.destroyed then AfterReconnect(s1, -1) else s1
  }

  /** A data chunk on any open stream: when keepaliveTime > 0, clear the one
      timer and arm it again with delay keepaliveTime. */
  function AfterData(s: State, g: nat): (r: State)
    requires g in s.openStreams
    ensures Keeps(s, r) && r.events == s.events
    ensures s.policy.keepaliveTime > 0 ==> r == s.(keepalive := Some(s.policy.keepaliveTime))
    ensures s.policy.keepaliveTime <= 0 ==> r == s
    ensures Valid(s) ==> Valid(r)
  {
    if s.policy.keepaliveTime > 0 then s.(keepalive := Some(s.policy.keepaliveTime)) else s
  }

  /** The keepalive timer fires: reconnect with no wait unless destroyed. */
  function AfterKeepaliveTimeout(s: State): (r: State)
    requires s.keepalive.Some?
    ensures Keeps(s, r) && r.destroyed == s.destroyed && r.keepalive.None?
    ensures s.destroyed ==> r == s.(keepalive := None)
    ensures !s.destroyed && !s.reconnecting ==>
      r.nRequests == s.nRequests + 1 && r.pendingWaits == s.pendingWaits
      && |r.events| > |s.events| && r.events[|s.events|] == Reconnecting
    ensures Valid(s) ==> Valid(r)
  {
    var s1 := s.(keepalive := None);
    if !s1.destroyed then AfterReconnect(s1, 0) else s1
  }

  /** `destroy()`: set `destroyed`, abort, emit `destroy`. */
  function AfterDestroy(s: State): (r: State)
    ensures Keeps(s, r) && r.destroyed
    ensures r.events == s.events + [Abort, Destroy]
    ensures Valid(s) ==> r.openStreams <= r.destroyRequested
    ensures r.nRequests == s.nRequests && r.inFlight == s.inFlight && r.pendingWaits == s.pendingWaits
    ensures Valid(s) ==> Valid(r)
  {
    var s1 := AfterAbort(s.(destroyed := true));
    CountConnectingAppendOther(s.events, [Abort, Destroy]);
    assert s1.events + [Destroy] == s.events + [Abort, Destroy];
    s1.(events := s1.events + [Destroy])
  }

  /** A new instance: defaults, then a first `connect`, which already aborts
      (emitting `abort` and cancelling the source). */
  function Construct(p: Policy): (r: State)
    ensures Valid(r)
    ensures r.nRequests == 1 && r.connecting && !r.connected && !r.reconnecting && !r.destroyed
    ensures r.events == [Abort, Connecting] && r.inFlight == {1} && r.sourceCancelled
  {
    assert Valid(Initial(p));
    AfterConnect(Initial(p))
  }

  // ---------------------------------------------------------------- runs

  datatype Input =
    | CallConnect
    | CallReconnect(wait: int)
    | CallAbort
    | CallDestroy
    | RequestResolved(attempt: nat)
    | RequestRejected(attempt: nat, failure: Failure)
    | StreamClosed(attempt: nat)
    | StreamData(attempt: nat)
    | KeepaliveFired
    | WaitElapsed(wait: int)

  predicate Enabled(s: State, i: Input)
  {
    match i
    case RequestResolved(g) => g in s.inFlight
    case RequestRejected(g, _) => g in s.inFlight
    case StreamClosed(g) => g in s.openStreams
    case StreamData(g) => g in s.openStreams
    case KeepaliveFired => s.keepalive.Some?
    case WaitElapsed(w) => w in s.pendingWaits
    case _ => true
  }

  function Step(s: State, i: Input): (r: State)
    ensures Keeps(s, r)
    ensures Valid(s) ==> Valid(r)
  {
    if !Enabled(s, i) then s
    else
      match i
      case CallConnect => AfterConnect(s)
      case CallReconnect(w) => AfterReconnect(s, w)
      case CallAbort => AfterAbort(s)
      case CallDestroy => AfterDestroy(s)
      case RequestResolved(g) => AfterResponse(s, g)
      case RequestRejected(g, f) => AfterRequestError(s, g, f)
      case StreamClosed(g) => AfterClose(s, g)
      case StreamData(g) => AfterData(s, g)
      case KeepaliveFired => AfterKeepaliveTimeout(s)
      case WaitElapsed(w) => AfterReconnectWait(s, w)
  }

  function Run(s: State, inputs: seq<Input>): State
    decreases |inputs|
  {
    if inputs == [] then s else Run(Step(s, inputs[0]), inputs[1..])
  }

  lemma {:induction false} RunKeepsValid(s: State, inputs: seq<Input>)
    requires Valid(s)
    ensures Valid(Run(s, inputs)) && Keeps(s, Run(s, inputs))
    decreases |inputs|
  {
    if inputs != [] {
      RunKeepsValid(Step(s, inputs[0]), inputs[1..]);
    }
  }

  /** Calls that only abort or destroy. */
  predicate IsCancelCall(i: Input)
  {
    i.CallAbort? || i.CallDestroy?
  }

  /** Aborting and destroying settle nothing by themselves: however often the
      instance is aborted or destroyed, every request in flight stays in
      flight until its own continuation runs, no request is issued, and the
      source ends cancelled. */
  lemma {:induction false} CancelLeavesRequestsInFlight(s: State, inputs: seq<Input>)
    requires forall k :: 0 <= k < |inputs| ==> IsCancelCall(inputs[k])
    ensures Run(s, inputs).inFlight == s.inFlight
    ensures Run(s, inputs).nRequests == s.nRequests
    ensures inputs != [] ==> Run(s, inputs).sourceCancelled
    decreases |inputs|
  {
    if inputs != [] {
      var t := Step(s, inputs[0]);
      assert t.inFlight == s.inFlight && t.nRequests == s.nRequests && t.sourceCancelled;
      CancelLeavesRequestsInFlight(t, inputs[1..]);
    }
  }

  /** Unlike the later version, a close reconnects whatever
      `reconnectOnClose` says and whichever attempt it comes from. */
  lemma CloseReconnectsRegardlessOfOption(s: State, g: nat)
    requires Valid(s) && g in s.openStreams && !s.destroyed && !s.reconnecting
    requires !s.policy.reconnectOnClose
    ensures AfterClose(s, g).reconnecting
    ensures AfterClose(s, g).events[|s.events| .. |s.events| + 2] == [Close, Reconnecting]
  {
    var r := AfterClose(s, g);
    assert r.events[|s.events|] == Close && r.events[|s.events| + 1] == Reconnecting;
  }

  /** The keepalive timer is shared: data on a stale stream keeps it armed,
      and the close of any stream disarms it. */
  lemma KeepaliveIsShared(s: State, g: nat, h: nat)
    requires Valid(s) && g in s.openStreams && h in s.openStreams && g != h
    requires s.policy.keepaliveTime > 0
    ensures AfterData(s, g).keepalive == Some(s.policy.keepaliveTime)
    ensures AfterClose(AfterData(s, g), h).keepalive.None?
  {
  }

  /** A destroyed instance never issues a request or schedules a
      reconnection; closes of the streams it destroyed are still reported. */
  lemma DestroyedStepIsInert(s: State, i: Input)
    requires s.destroyed
    ensures Step(s, i).nRequests == s.nRequests
    ensures Step(s, i).pendingWaits <= s.pendingWaits
    ensures forall k :: |s.events| <= k < |Step(s, i).events| ==>
      !Step(s, i).events[k].Connecting? && !Step(s, i).events[k].Reconnecting?
  {
    if Enabled(s, i) {
      match i
      case CallConnect =>
      case CallReconnect(_) =>
      case CallAbort =>
      case CallDestroy =>
      case RequestResolved(_) =>
      case RequestRejected(_, _) =>
      case StreamClosed(_) =>
      case StreamData(_) =>
      case KeepaliveFired =>
      case WaitElapsed(_) =>
    }
  }

  lemma {:induction false} DestroyIsTerminal(s: State, inputs: seq<Input>)
    requires Valid(s) && s.destroyed
    ensures Run(s, inputs).destroyed
    ensures Run(s, inputs).nRequests == s.nRequests
    ensures Run(s, inputs).pendingWaits <= s.pendingWaits
    ensures forall k :: |s.events| <= k < |Run(s, inputs).events| ==>
      !Run(s, inputs).events[k].Connecting? && !Run(s, inputs).events[k].Reconnecting?
    decreases |inputs|
  {
    if inputs != [] {
      var t := Step(s, inputs[0]);
      DestroyedStepIsInert(s, inputs[0]);
      DestroyIsTerminal(t, inputs[1..]);
      RunKeepsValid(t, inputs[1..]);
      var r := Run(s, inputs);
      assert r == Run(t, inputs[1..]);
      forall k | |s.events| <= k < |r.events| ensures !r.events[k].Connecting? && !r.events[k].Reconnecting? {
        if k < |t.events| {
          assert r.events[k] == t.events[k];
        }
      }
    }
  }

  /** A second `destroy` only emits `abort` and `destroy` again. */
  lemma DestroyTwice(s: State)
    ensures AfterDestroy(AfterDestroy(s)) ==
      AfterDestroy(s).(events := AfterDestroy(s).events + [Abort, Destroy])
  {
  }

  // ---------------------------------------------------------------- the class

  /**
   * The old PersistentRequest, fields updated in place; each method is the
   * transition of the same name above. The closures' state (which streams
   * are open, which `abort` listeners remain) is held in fields.
   */
  class PersistentRequest {
    const requestOptions: Uri.RequestOptions
    const options: Policy
    var reconnectOnError: bool
    var nRequests: nat
    var connecting: bool
    var connected: bool
    var reconnecting: bool
    var destroyed: bool
    var sourceCancelled: bool
    var reqError: Option<nat>
    var inFlight: set<nat>
    var openStreams: set<nat>
    var abortListeners: set<nat>
    var destroyRequested: set<nat>
    var keepalive: Option<int>
    var pendingWaits: multiset<int>
    var events: seq<Event>

    function Model(): State
      reads this
    {
      State(options, reconnectOnError, nRequests, connecting, connected, reconnecting, destroyed,
            sourceCancelled, reqError, inFlight, openStreams, abortListeners, destroyRequested,
            keepalive, pendingWaits, events)
    }

    /** The `uri` getter of this version: no query string. */
    function TargetUri(): (r: string)
      ensures r <= Uri.Build(requestOptions)
      ensures requestOptions.params.None? ==> r == Uri.Build(requestOptions)
    {
      Uri.Base(requestOptions)
    }

    constructor (requestOptions: Uri.RequestOptions, overrides: Controller.Overrides)
      ensures Model() == Construct(Controller.ResolvePolicy(overrides)) && Valid(Model())
      ensures this.requestOptions == requestOptions
    {
      this.requestOptions := requestOptions;
      options := Controller.ResolvePolicy(overrides);
      reconnectOnError := false;
      nRequests := 0;
      connecting, connected, reconnecting := false, false, false;
      destroyed := false;
      sourceCancelled := false;
      reqError := None;
      inFlight, openStreams, abortListeners, destroyRequested := {}, {}, {}, {};
      keepalive, pendingWaits, events := None, multiset{}, [];
      new;
      Connect();
    }

    method Connect()
      modifies this
      ensures Model() == AfterConnect(old(Model()))
    {
      if destroyed {
        return;
      }
      Abort();
      nRequests := nRequests + 1;
      reqError := None;
      connecting := true;
      events := events + [Event.Connecting];
      inFlight := inFlight + {nRequests};
    }

    method Reconnect(wait: int)
      modifies this
      ensures Model() == AfterReconnect(old(Model()), wait)
    {
      if destroyed || reconnecting {
        return;
      }
      reconnecting := true;
      var w := if wait < 0 then options.waitBeforeReconnection else wait;
      events := events + [Event.Reconnecting];
      if w > 0 {
        pendingWaits := pendingWaits + multiset{w};
        return;
      }
      Connect();
    }

    method Abort()
      modifies this
      ensures Model() == AfterAbort(old(Model()))
    {
      events := events + [Event.Abort];
      // the one-shot listeners run during the emit
      destroyRequested := destroyRequested + abortListeners;
      abortListeners := {};
      sourceCancelled := true;
    }

    method Destroy()
      modifies this
      ensures Model() == AfterDestroy(old(Model()))
    {
      destroyed := true;
      Abort();
      events := events + [Event.Destroy];
    }

    method HandleResponse(g: nat)
      requires g in inFlight
      modifies this
      ensures Model() == AfterResponse(old(Model()), g)
    {
      ghost var s := Model();
      inFlight, openStreams, abortListeners := inFlight - {g}, openStreams + {g}, abortListeners + {g};
      connected, connecting, reconnecting := true, false, false;
      events := events + [Response(g)];
      assert Model() == s.(inFlight := s.inFlight - {g}, openStreams := s.openStreams + {g},
        abortListeners := s.abortListeners + {g},
        connected := true, connecting := false, reconnecting := false,
        events := s.events + [Response(g)]);
    }

    method HandleRequestError(g: nat, f: Failure)
      requires g in inFlight
      modifies this
      ensures Model() == AfterRequestError(old(Model()), g, f)
    {
      ghost var s := Model();
      inFlight := inFlight - {g};
      connected, connecting, reconnecting := false, false, false;
      ghost var s1 := s.(inFlight := s.inFlight - {g}, connected := false, connecting := false, reconnecting := false);
      assert Model() == s1;
      if f.Cancel? {
        return;
      }
      events := events + [Error(g)];
      reqError := Some(g);
      assert Model() == s1.(events := s1.events + [Error(g)], reqError := Some(g));
      if !destroyed && reconnectOnError {
        Reconnect(-1);
      }
    }

    method HandleClose(g: nat)
      requires g in openStreams
      modifies this
      ensures Model() == AfterClose(old(Model()), g)
    {
      openStreams := openStreams - {g};
      keepalive := None;
      connected := false;
      events := events + [Event.Close];
      if !destroyed {
        Reconnect(-1);
      }
    }

    method HandleData(g: nat)
      requires g in openStreams
      modifies this
      ensures Model() == AfterData(old(Model()), g)
    {
      if options.keepaliveTime > 0 {
        keepalive := Some(options.keepaliveTime);
      }
    }

    method HandleKeepaliveTimeout()
      requires keepalive.Some?
      modifies this
      ensures Model() == AfterKeepaliveTimeout(old(Model()))
    {
      keepalive := None;
      if !destroyed {
        Reconnect(0);
      }
    }

    method HandleReconnectWait(w: int)
      requires w in pendingWaits
      modifies this
      ensures Model() == AfterReconnectWait(old(Model()), w)
    {
      pendingWaits := pendingWaits - multiset{w};
      if destroyed {
        return;
      }
      Connect();
    }
  }

  /** `new PersistentRequest(requestOptions, options)` of this version. */
  method Create(arg: Uri.Argument, overrides: Controller.Overrides) returns (r: Result<PersistentRequest, ConstructError>)
    ensures r.Success? <==> arg.ObjectArg?
    ensures r.Failure? ==> r.error == CheckRequestOptions(arg).error
    ensures r.Success? ==>
      fresh(r.value) && r.value.requestOptions == arg.options
      && r.value.Model() == Construct(Controller.ResolvePolicy(overrides))
  {
    match CheckRequestOptions(arg)
    case Failure(e) =>
      r := Failure(e);
    case Success(o) =>
      var pr := new PersistentRequest(o, overrides);
      r := Success(pr);
  }
}

=== FILE: text.dfy ===
/**
 * Character-level helpers that the platform provides to the adapter:
 * ASCII case mapping (header names, HTTP methods), UTF-8 encoding
 * (`unescape(encodeURIComponent(..))` and form-urlencoding) and
 * `btoa`, the base64 encoding of RFC 4648 section 4.
 */
module Text {
  import opened Wrappers

  type Byte = x: int | 0 <= x < 256

  // ---------------------------------------------------------------- ASCII case

  function LowerChar(c: char): char
  {
    if 'A' <= c <= 'Z' then (c as int + 32) as char else c
  }

  function UpperChar(c: char): char
  {
    if 'a' <= c <= 'z' then (c as int - 32) as char else c
  }

  /** ASCII lower-casing, as Fetch does to header names. */
  function Lower(s: string): (r: string)
    ensures |r| == |s|
    ensures forall i :: 0 <= i < |s| ==> r[i] == LowerChar(s[i])
  {
    seq(|s|, i requires 0 <= i < |s| => LowerChar(s[i]))
  }

  /** ASCII upper-casing (`toUpperCase` restricted to ASCII letters). */
  function Upper(s: string): (r: string)
    ensures |r| == |s|
    ensures forall i :: 0 <= i < |s| ==> r[i] == UpperChar(s[i])
  {
    seq(|s|, i requires 0 <= i < |s| => UpperChar(s[i]))
  }

  predicate HasNoLowerLetter(s: string)
  {
    forall i :: 0 <= i < |s| ==> !('a' <= s[i] <= 'z')
  }

  /** Upper-casing leaves no lower-case letter and is invisible to a
      case-insensitive comparison. */
  lemma UpperIsCaseInsensitive(s: string)
    ensures HasNoLowerLetter(Upper(s))
    ensures Lower(Upper(s)) == Lower(s)
  {
  }

  /** Comparing two names after upper-casing agrees with comparing them after
      lower-casing: both mean "equal up to ASCII case". */
  lemma UpperEqIffLowerEq(a: string, b: string)
    ensures Upper(a) == Upper(b) <==> Lower(a) == Lower(b)
  {
    if Upper(a) == Upper(b) {
      assert |a| == |b|;
      forall i | 0 <= i < |a| ensures Lower(a)[i] == Lower(b)[i] {
        assert Upper(a)[i] == Upper(b)[i];
      }
    }
    if Lower(a) == Lower(b) {
      assert |a| == |b|;
      forall i | 0 <= i < |a| ensures Upper(a)[i] == Upper(b)[i] {
        assert Lower(a)[i] == Lower(b)[i];
      }
    }
  }

  // ---------------------------------------------------------------- UTF-8

  /** The UTF-8 encoding of one Unicode scalar value. */
  function Utf8(c: char): (bs: seq<Byte>)
    ensures 1 <= |bs| <= 4
    ensures (|bs| == 1) <==> (c as int < 0x80)
  {
    var n := c as int;
    if n < 0x80 then [n]
    else if n < 0x800 then [0xC0 + n / 64, 0x80 + n % 64]
    else if n < 0x10000 then [0xE0 + n / 4096, 0x80 + (n / 64) % 64, 0x80 + n % 64]
    else [0xF0 + n / 262144, 0x80 + (n / 4096) % 64, 0x80 + (n / 64) % 64, 0x80 + n % 64]
  }

  function Utf8Bytes(s: string): (bs: seq<Byte>)
    ensures |bs| >= |s|
  {
    if s == [] then [] else Utf8(s[0]) + Utf8Bytes(s[1..])
  }

  /** `unescape(encodeURIComponent(s))`: one character per UTF-8 byte. */
  function Utf8AsLatin1(s: string): (r: string)
    ensures forall i :: 0 <= i < |r| ==> r[i] as int < 256
  {
    BytesAsLatin1(Utf8Bytes(s))
  }

  function BytesAsLatin1(bs: seq<Byte>): (r: string)
    ensures |r| == |bs|
    ensures forall i :: 0 <= i < |r| ==> r[i] as int == bs[i]
  {
    if bs == [] then [] else [bs[0] as char] + BytesAsLatin1(bs[1..])
  }

  predicate IsLatin1(s: string)
  {
    forall i :: 0 <= i < |s| ==> s[i] as int < 256
  }

  function Latin1Bytes(s: string): (bs: seq<Byte>)
    requires IsLatin1(s)
    ensures |bs| == |s|
    ensures forall i :: 0 <= i < |s| ==> bs[i] == s[i] as int
  {
    if s == [] then [] else [s[0] as int] + Latin1Bytes(s[1..])
  }

  // ---------------------------------------------------------------- base64

  /** The base64 alphabet of RFC 4648 section 4, table 1. */
  function SextetChar(i: nat): (c: char)
    requires i < 64
  {
    if i < 26 then ('A' as int + i) as char
    else if i < 52 then ('a' as int + (i - 26)) as char
    else if i < 62 then ('0' as int + (i - 52)) as char
    else if i == 62 then '+'
    else '/'
  }

  function SextetOf(c: char): (r: Option<nat>)
    ensures r.Some? ==> r.value < 64 && SextetChar(r.value) == c
  {
    if 'A' <= c <= 'Z' then Some(c as int - 'A' as int)
    else if 'a' <= c <= 'z' then Some(c as int - 'a' as int + 26)
    else if '0' <= c <= '9' then Some(c as int - '0' as int + 52)
    else if c == '+' then Some(62)
    else if c == '/' then Some(63)
    else None
  }

  lemma SextetRoundTrip(i: nat)
    requires i < 64
    ensures SextetOf(SextetChar(i)) == Some(i)
  {
  }

  /** Base64 with `=` padding. */
  function Base64(bs: seq<Byte>): (r: string)
    ensures |r| == 4 * ((|bs| + 2) / 3)
    decreases |bs|
  {
    if |bs| == 0 then ""
    else if |bs| == 1 then
      [SextetChar(bs[0] / 4), SextetChar((bs[0] % 4) * 16), '=', '=']
    else if |bs| == 2 then
      [SextetChar(bs[0] / 4), SextetChar((bs[0] % 4) * 16 + bs[1] / 16),
       SextetChar((bs[1] % 16) * 4), '=']
    else Quad(bs[0], bs[1], bs[2]) + Base64(bs[3..])
  }

  /** Decodes one four-character group; padding is accepted only in the last group. */
  function DecodeGroup(g: string, last: bool): Option<seq<Byte>>
    requires |g| == 4
  {
    var s0, s1 := SextetOf(g[0]), SextetOf(g[1]);
    if s0.None? || s1.None? then None
    else if last && g[2] == '=' && g[3] == '=' then
      Some([s0.value * 4 + s1.value / 16])
    else if last && g[3] == '=' then
      var s2 := SextetOf(g[2]);
      if s2.None? then None
      else Some([s0.value * 4 + s1.value / 16, (s1.value % 16) * 16 + s2.value / 4])
    else
      var s2, s3 := SextetOf(g[2]), SextetOf(g[3]);
      if s2.None? || s3.None? then None
      else Some([s0.value * 4 + s1.value / 16, (s1.value % 16) * 16 + s2.value / 4,
                 (s2.value % 4) * 64 + s3.value])
  }

  /** Base64 decoding (RFC 4648 section 4), the inverse of Base64. */
  function Base64Decode(s: string): Option<seq<Byte>>
    decreases |s|
  {
    if |s| == 0 then Some([])
    else if |s| < 4 then None
    else
      match DecodeGroup(s[..4], |s| == 4)
      case None => None
      case Some(head) =>
        match Base64Decode(s[4..])
        case None => None
        case Some(tail) => Some(head + tail)
  }

  /** The sextets of a group of bytes give the bytes back. */
  lemma GroupArithmetic(b0: Byte, b1: Byte, b2: Byte)
    ensures (b0 / 4) * 4 + ((b0 % 4) * 16 + b1 / 16) / 16 == b0
    ensures (b0 / 4) * 4 + ((b0 % 4) * 16) / 16 == b0
    ensures (((b0 % 4) * 16 + b1 / 16) % 16) * 16 + ((b1 % 16) * 4 + b2 / 64) / 4 == b1
    ensures (((b0 % 4) * 16 + b1 / 16) % 16) * 16 + ((b1 % 16) * 4) / 4 == b1
    ensures (((b1 % 16) * 4 + b2 / 64) % 4) * 64 + b2 % 64 == b2
  {
    assert ((b0 % 4) * 16 + b1 / 16) / 16 == b0 % 4;
    assert ((b0 % 4) * 16 + b1 / 16) % 16 == b1 / 16;
    assert ((b1 % 16) * 4 + b2 / 64) / 4 == b1 % 16;
    assert ((b1 % 16) * 4 + b2 / 64) % 4 == b2 / 64;
  }

  /** The four characters that encode three bytes. */
  function Quad(b0: Byte, b1: Byte, b2: Byte): (q: string)
    ensures |q| == 4
  {
    [SextetChar(b0 / 4), SextetChar((b0 % 4) * 16 + b1 / 16),
     SextetChar((b1 % 16) * 4 + b2 / 64), SextetChar(b2 % 64)]
  }

  lemma QuadDecodes(b0: Byte, b1: Byte, b2: Byte, last: bool)
    ensures DecodeGroup(Quad(b0, b1, b2), last) == Some([b0, b1, b2])
  {
    GroupArithmetic(b0, b1, b2);
    SextetRoundTrip(b0 / 4);
    SextetRoundTrip((b0 % 4) * 16 + b1 / 16);
    SextetRoundTrip((b1 % 16) * 4 + b2 / 64);
    SextetRoundTrip(b2 % 64);
  }

  lemma OneByteDecodes(b0: Byte)
    ensures DecodeGroup([SextetChar(b0 / 4), SextetChar((b0 % 4) * 16), '=', '='], true) == Some([b0])
  {
    GroupArithmetic(b0, 0, 0);
    var g := [SextetChar(b0 / 4), SextetChar((b0 % 4) * 16), '=', '='];
    SextetRoundTrip(b0 / 4);
    SextetRoundTrip((b0 % 4) * 16);
    assert SextetOf(g[0]) == Some(b0 / 4);
    assert SextetOf(g[1]) == Some((b0 % 4) * 16);
  }

  lemma TwoBytesDecode(b0: Byte, b1: Byte)
    ensures DecodeGroup([SextetChar(b0 / 4), SextetChar((b0 % 4) * 16 + b1 / 16),
                         SextetChar((b1 % 16) * 4), '='], true) == Some([b0, b1])
  {
    GroupArithmetic(b0, b1, 0);
    var g := [SextetChar(b0 / 4), SextetChar((b0 % 4) * 16 + b1 / 16), SextetChar((b1 % 16) * 4), '='];
    SextetRoundTrip(b0 / 4);
    SextetRoundTrip((b0 % 4) * 16 + b1 / 16);
    SextetRoundTrip((b1 % 16) * 4);
    assert SextetOf(g[0]) == Some(b0 / 4);
    assert SextetOf(g[1]) == Some((b0 % 4) * 16 + b1 / 16);
    assert SextetOf(g[2]) == Some((b1 % 16) * 4);
    assert g[2] != '=';
  }

  /** Decoding proceeds one group at a time. */
  lemma DecodeGroups(q: string, rest: string, head: seq<Byte>, tail: seq<Byte>)
    requires |q| == 4
    requires DecodeGroup(q, rest == []) == Some(head)
    requires Base64Decode(rest) == Some(tail)
    ensures Base64Decode(q + rest) == Some(head + tail)
  {
    var s := q + rest;
    assert s[..4] == q;
    assert s[4..] == rest;
  }

  lemma ShortRoundTrip(bs: seq<Byte>)
    requires 1 <= |bs| <= 2
    ensures Base64Decode(Base64(bs)) == Some(bs)
  {
    var r := Base64(bs);
    if |bs| == 1 {
      OneByteDecodes(bs[0]);
      assert r == [SextetChar(bs[0] / 4), SextetChar((bs[0] % 4) * 16), '=', '='];
      assert bs == [bs[0]];
    } else {
      TwoBytesDecode(bs[0], bs[1]);
      assert r == [SextetChar(bs[0] / 4), SextetChar((bs[0] % 4) * 16 + bs[1] / 16),
                   SextetChar((bs[1] % 16) * 4), '='];
      assert bs == [bs[0], bs[1]];
    }
    DecodeGroups(r, [], bs, []);
    assert r + [] == r;
    assert bs + [] == bs;
  }

  /** Decoding undoes encoding, for every byte string. */
  lemma {:induction false} Base64RoundTrip(bs: seq<Byte>)
    ensures Base64Decode(Base64(bs)) == Some(bs)
    decreases |bs|
  {
    if |bs| == 0 {
    } else if |bs| <= 2 {
      ShortRoundTrip(bs);
    } else {
      var rest := Base64(bs[3..]);
      var q := Quad(bs[0], bs[1], bs[2]);
      assert Base64(bs) == q + rest;
      QuadDecodes(bs[0], bs[1], bs[2], rest == []);
      Base64RoundTrip(bs[3..]);
      DecodeGroups(q, rest, [bs[0], bs[1], bs[2]], bs[3..]);
      assert [bs[0], bs[1], bs[2]] + bs[3..] == bs;
    }
  }

  /** `btoa`: fails (InvalidCharacterError) on a character outside Latin-1. */
  datatype EncodeError = InvalidCharacter

  function Btoa(s: string): (r: Result<string, EncodeError>)
    ensures r.Success? <==> IsLatin1(s)
    ensures r.Success? ==> Base64Decode(r.value) == Some(Latin1Bytes(s))
  {
    if IsLatin1(s) then Base64RoundTrip(Latin1Bytes(s)); Success(Base64(Latin1Bytes(s)))
    else Failure(InvalidCharacter)
  }
}

=== FILE: uri.dfy ===
/**
 * The `uri` getter of PersistentRequest (src/index.js, and the shorter one of
 * the root index.js): base URL and path, then the query string made from the
 * `params` entries whose value is neither null nor undefined, serialized as
 * `application/x-www-form-urlencoded` (section 5.2 of the WHATWG URL Standard).
 */
module Uri {
  import opened Wrappers
  import opened Text

  /** A value of the `params` object: only null and undefined are dropped;
      any other value is serialized through its string conversion. */
  datatype ParamValue = Null | Undefined | Given(text: string)

  /** The parts of the axios request options that the getter reads.
      `baseURL` is None when it is falsy (undefined, null); `params` is None
      when the field is falsy and otherwise lists `Object.entries(params)`. */
  datatype RequestOptions = RequestOptions(
    baseURL: Option<string>,
    url: string,
    params: Option<seq<(string, ParamValue)>>)

  /** What `typeof` makes of the constructor's first argument: an object,
      `null` (which `typeof` also calls "object"), or anything else. */
  datatype Argument = ObjectArg(options: RequestOptions) | NullArg | OtherArg

  /** `(baseURL || "") + url`: the whole getter of the root index.js. */
  function Base(o: RequestOptions): (r: string)
    ensures o.baseURL.None? ==> r == o.url
    ensures o.baseURL.Some? ==> |r| == |o.baseURL.value| + |o.url| && r[..|o.baseURL.value|] == o.baseURL.value
    ensures r[|r| - |o.url|..] == o.url
  {
    (if o.baseURL.Some? then o.baseURL.value else "") + o.url
  }

  /** The entries that survive the null/undefined filter, in order. */
  function Kept(entries: seq<(string, ParamValue)>): (r: seq<(string, string)>)
    ensures |r| <= |entries|
    ensures forall k, v :: (k, v) in r <==> (k, Given(v)) in entries
    ensures r == [] <==> forall i :: 0 <= i < |entries| ==> !entries[i].1.Given?
  {
    if entries == [] then []
    else
      var rest := Kept(entries[1..]);
      assert forall e :: e in entries <==> e == entries[0] || e in entries[1..];
      match entries[0].1
      case Given(v) => [(entries[0].0, v)] + rest
      case _ => rest
  }

  /** A single entry is kept, as its name and value, exactly when its value
      is given. */
  lemma KeptSingleton(e: (string, ParamValue))
    ensures e.1.Given? ==> Kept([e]) == [(e.0, e.1.text)]
    ensures !e.1.Given? ==> Kept([e]) == []
  {
    assert [e][1..] == [];
  }

  /** Filtering distributes over concatenation: with KeptSingleton this fixes
      the order and multiplicity of the kept entries, which is the order of
      `Object.entries(params)`. */
  lemma {:induction false} KeptConcat(a: seq<(string, ParamValue)>, b: seq<(string, ParamValue)>)
    ensures Kept(a + b) == Kept(a) + Kept(b)
    decreases |a|
  {
    if a != [] {
      assert (a + b)[1..] == a[1..] + b;
      KeptConcat(a[1..], b);
    } else {
      assert a + b == b;
    }
  }

  // ------------------------------------------------ form-urlencoded serializer

  /** Characters the form-urlencoded percent-encode set leaves alone. */
  predicate IsFormSafe(c: char)
  {
    ('a' <= c <= 'z') || ('A' <= c <= 'Z') || ('0' <= c <= '9')
    || c == '*' || c == '-' || c == '.' || c == '_'
  }

  /** Characters that can appear in an encoded name or value. */
  predicate IsEncodedChar(c: char)
  {
    IsFormSafe(c) || c == '+' || c == '%'
  }

  function HexDigit(d: nat): (c: char)
    requires d < 16
    ensures IsFormSafe(c)
  {
    if d < 10 then ('0' as int + d) as char else ('A' as int + (d - 10)) as char
  }

  /** `%XX` for every byte, upper-case hexadecimal. */
  function PercentEncode(bs: seq<Byte>): (r: string)
    ensures forall i :: 0 <= i < |r| ==> IsEncodedChar(r[i])
  {
    if bs == [] then ""
    else ['%', HexDigit(bs[0] / 16), HexDigit(bs[0] % 16)] + PercentEncode(bs[1..])
  }

  /** One code point: space becomes `+`, safe characters stay, the rest are
      percent-encoded as their UTF-8 bytes. */
  function EncodeChar(c: char): (r: string)
    ensures r != []
    ensures forall i :: 0 <= i < |r| ==> IsEncodedChar(r[i])
  {
    if c == ' ' then "+"
    else if IsFormSafe(c) then [c]
    else PercentEncode(Utf8(c))
  }

  function FormEncode(s: string): (r: string)
    ensures forall i :: 0 <= i < |r| ==> IsEncodedChar(r[i])
    ensures |r| >= |s|
  {
    if s == [] then "" else EncodeChar(s[0]) + FormEncode(s[1..])
  }

  /** `name=value` for one entry. */
  function EncodePair(p: (string, string)): string
  {
    FormEncode(p.0) + "=" + FormEncode(p.1)
  }

  function EncodePairs(ps: seq<(string, string)>): (r: seq<string>)
    ensures |r| == |ps|
    ensures forall i :: 0 <= i < |ps| ==> r[i] == EncodePair(ps[i])
  {
    if ps == [] then [] else [EncodePair(ps[0])] + EncodePairs(ps[1..])
  }

  /** The serializer of section 5.2: encoded pairs separated by `&`. */
  function Serialize(ps: seq<(string, string)>): string
  {
    if ps == [] then "" else Join(EncodePairs(ps), '&')
  }

  // ------------------------------------------------ splitting and joining

  function Join(parts: seq<string>, sep: char): string
    requires |parts| >= 1
  {
    if |parts| == 1 then parts[0] else parts[0] + [sep] + Join(parts[1..], sep)
  }

  /** Cuts a string at every occurrence of `sep`. */
  function Split(s: string, sep: char): (r: seq<string>)
    ensures |r| >= 1
    decreases |s|
  {
    if s == [] then [""]
    else
      var rest := Split(s[1..], sep);
      if s[0] == sep then [""] + rest else [[s[0]] + rest[0]] + rest[1..]
  }

  /** Splitting text without the separator, then the separator, then more. */
  lemma {:induction false} SplitAfterPart(a: string, sep: char, b: string)
    requires sep !in a
    ensures Split(a + [sep] + b, sep) == [a] + Split(b, sep)
    decreases |a|
  {
    var s := a + [sep] + b;
    if a == [] {
      assert s[1..] == b;
    } else {
      assert s[1..] == a[1..] + [sep] + b;
      SplitAfterPart(a[1..], sep, b);
      assert [a[0]] + a[1..] == a;
    }
  }

  lemma {:induction false} SplitWithoutSeparator(a: string, sep: char)
    requires sep !in a
    ensures Split(a, sep) == [a]
    decreases |a|
  {
    if a != [] {
      SplitWithoutSeparator(a[1..], sep);
      assert [a[0]] + a[1..] == a;
    }
  }

  /** Splitting undoes joining when no part holds the separator. */
  lemma {:induction false} SplitJoin(parts: seq<string>, sep: char)
    requires |parts| >= 1
    requires forall i :: 0 <= i < |parts| ==> sep !in parts[i]
    ensures Split(Join(parts, sep), sep) == parts
    decreases |parts|
  {
    if |parts| == 1 {
      SplitWithoutSeparator(parts[0], sep);
    } else {
      SplitJoin(parts[1..], sep);
      SplitAfterPart(parts[0], sep, Join(parts[1..], sep));
      assert [parts[0]] + parts[1..] == parts;
    }
  }

  // ------------------------------------------------ reading a query back

  function SplitPairs(parts: seq<string>): (r: seq<seq<string>>)
    ensures |r| == |parts|
  {
    if parts == [] then [] else [Split(parts[0], '=')] + SplitPairs(parts[1..])
  }

  /** Reads a query back into its encoded `[name, value]` pairs. */
  function ParseQuery(q: string): seq<seq<string>>
  {
    if q == "" then [] else SplitPairs(Split(q, '&'))
  }

  function EncodedFields(ps: seq<(string, string)>): (r: seq<seq<string>>)
    ensures |r| == |ps|
  {
    if ps == [] then [] else [[FormEncode(ps[0].0), FormEncode(ps[0].1)]] + EncodedFields(ps[1..])
  }

  lemma NoDelimiters(s: string)
    ensures '&' !in FormEncode(s) && '=' !in FormEncode(s)
  {
  }

  lemma {:induction false} PairFieldsSplit(ps: seq<(string, string)>)
    ensures SplitPairs(EncodePairs(ps)) == EncodedFields(ps)
    decreases |ps|
  {
    if ps != [] {
      NoDelimiters(ps[0].0);
      NoDelimiters(ps[0].1);
      SplitAfterPart(FormEncode(ps[0].0), '=', FormEncode(ps[0].1));
      SplitWithoutSeparator(FormEncode(ps[0].1), '=');
      assert EncodePair(ps[0]) == FormEncode(ps[0].0) + ['='] + FormEncode(ps[0].1);
      assert Split(EncodePair(ps[0]), '=') == [FormEncode(ps[0].0), FormEncode(ps[0].1)];
      assert EncodePairs(ps)[1..] == EncodePairs(ps[1..]);
      PairFieldsSplit(ps[1..]);
    }
  }

  /** The query can be read back: it holds exactly the kept entries, in order,
      each as its encoded name and encoded value. */
  lemma QueryRoundTrip(ps: seq<(string, string)>)
    ensures ParseQuery(Serialize(ps)) == EncodedFields(ps)
    ensures Serialize(ps) == "" <==> ps == []
  {
    if ps != [] {
      var parts := EncodePairs(ps);
      forall i | 0 <= i < |parts| ensures '&' !in parts[i] {
        NoDelimiters(ps[i].0);
        NoDelimiters(ps[i].1);
      }
      SplitJoin(parts, '&');
      assert |parts[0]| >= 1;
      JoinHasFirst(parts, '&');
      PairFieldsSplit(ps);
    }
  }

  lemma JoinHasFirst(parts: seq<string>, sep: char)
    requires |parts| >= 1
    ensures |Join(parts, sep)| >= |parts[0]|
  {
  }

  // ------------------------------------------------ the getter

  /** The `uri` getter of src/index.js. */
  function Build(o: RequestOptions): (r: string)
    ensures Base(o) <= r
    ensures r != Base(o) ==> r[|Base(o)|] == '?' && o.params.Some?
  {
    if o.params.None? then Base(o)
    else
      var search := Serialize(Kept(o.params.value));
      if search != "" then Base(o) + "?" + search else Base(o)
  }

  /** `?` and the query are appended exactly when some entry has a value that
      is neither null nor undefined; the query lists those entries in order. */
  lemma BuildShape(o: RequestOptions)
    ensures Build(o) == Base(o) <==>
      (o.params.None? || forall i :: 0 <= i < |o.params.value| ==> !o.params.value[i].1.Given?)
    ensures Build(o) != Base(o) ==>
      o.params.Some? && Build(o) == Base(o) + "?" + Serialize(Kept(o.params.value))
      && ParseQuery(Build(o)[|Base(o)| + 1..]) == EncodedFields(Kept(o.params.value))
  {
    if o.params.Some? {
      var ps := Kept(o.params.value);
      QueryRoundTrip(ps);
      if Serialize(ps) != "" {
        assert |Build(o)| > |Base(o)|;
        assert Build(o)[|Base(o)| + 1..] == Serialize(ps);
      }
    }
  }

  /** Without params both getters agree; otherwise the root index.js value is
      a prefix of the src/index.js value. */
  lemma BuildExtendsBase(o: RequestOptions)
    ensures Base(o) <= Build(o)
    ensures o.params.None? ==> Build(o) == Base(o)
  {
  }
}

=== FILE: wrappers.dfy ===
/** Optional values and failure-carrying results, shared by the other modules. */
module Wrappers {

  /** A value that may be absent (JavaScript `undefined` or `null`). */
  datatype Option<+T> = None | Some(value: T)

  /** The outcome of an operation that may throw. */
  datatype Result<+R, +E> = Success(value: R) | Failure(error: E)
}
